=== FILE: README.md ===
# EncoderTool decode engine, in Dafny

This project models the per-encoder decode engine of EncoderTool, `EncoderBase<counter_t>` in
`src/EncoderBase.h`, and proves properties of it. Each call to `update` samples the two
quadrature phase lines of a rotary encoder and does four things in order:

1. It feeds the debounced push button.
2. It looks up the next state in one of three constant 7×4 transition tables: quarter, half or
   full step.
3. On an `UP` or `DOWN` tag, it moves a signed counter between `minVal` and `maxVal`. The counter
   saturates at the bounds or wraps around them, and an optional time-based acceleration can
   multiply the step.
4. On an `ERR` tag, it reports the error.

Value changes and button changes also set read-and-clear flags and call optional callbacks.

The modules follow the parts of the engine:

- `StateMachine` (`state_machine.dfy`) covers:
  - the three tables as constant `seq<seq<Byte>>` values, cell by cell, including the
    zero-filled rows 4–6 of the full-step table and the absorbing all-`ERR` row 6 of the
    half-step table;
  - splitting a cell into its low-nibble next state and its high-nibble tag;
  - the inversion mask that turns a phase sample into a table input;
  - `Run`/`Trace`, which run a table over a sequence of inputs, and the proofs about whole
    quadrature periods.
- `Acceleration` (`acceleration.dfy`) covers the elapsed time on the 32-bit millisecond clock,
  the tiered multiplier of each mode, and the accelerated step.
- `Counter` (`counter.dfy`) covers:
  - the signed counter types;
  - `CountUp`/`CountDown`, the four-way UP and DOWN case split as pure functions;
  - `Drive`, which applies a sequence of steps, and the lemmas about saturation and periodic
    wrap-around.
- `Encoder` (`encoder.dfy`) is the class `EncoderBase`. It has the fields the source updates in
  place and methods for the setters, `begin`, the read-and-clear flags and `update`. A ghost
  `events` log records every callback call in order. `Update` is split into `SampleButton`
  (the button part) and `Decode` (table step, then counter or error path). Its contract ties
  the new state to the `StateMachine`, `Acceleration` and `Counter` functions.
- `Turning` (`turning.dfy`) joins the decoder to the counter. With acceleration off, k whole
  turns move a periodic counter by k times the counts per period, modulo the range. A
  non-periodic counter moves by the same amount but stops at `maxVal`.
- `Scenarios` (`scenarios.dfy`) holds client-level methods. Each builds a fresh engine,
  configures it and feeds it samples, and states what the caller observes.

Notes on the code that the model reproduces:

- The counts per quadrature period listed with the `CountMode` values (src/EncoderBase.h:10-15)
  are what the tables give: one for quarter, two for half and four for full step
  (src/EncoderBase.h:409-415 gives an `UP` on every edge). See `StateMachine.ClockwisePeriod`
  and `Turning.ClockwiseTurningWraps`.
- `setValue` and `setLimits` do not clamp the value into the bounds. So `minVal <= value <=
  maxVal` (`InBounds`) is preserved by `update` but not established by those two.
- The `stateMachine == nullptr` guard (src/EncoderBase.h:300) cannot fire on a constructed
  object. The pointer starts at the full table and `setCountMode` only assigns one of the three
  tables. The source keeps the guard for calls made before the constructor has run (its comment
  at src/EncoderBase.h:300); the model has no unconstructed state, so its `stateMachine` field
  is always one of the three constant tables (`Valid`).
- In both quarter modes a detent samples as input 3: `quarter` inverts the phases
  (src/EncoderBase.h:166-168), so its detent is at 00, and `quarterInv` does not
  (src/EncoderBase.h:170-172), so its detent is at 11. `begin` there (src/EncoderBase.h:227-230)
  seeds `C_cw`. From `C_cw` a clockwise detent-to-detent period counts its `UP` half way, on
  entering `A`. A counter-clockwise period from `C_cw` only undoes that half period, so the
  first counter-clockwise detent after `begin` is not counted (`StateMachine.QuarterDetentReversal`).
- A rejected saturating step writes `value = maxVal` (or `minVal`) even when the value was
  outside the bounds. `CountUp`/`CountDown` reproduce that write.

## Model

| member | source | states |
|---|---|---|
| StateMachine.TablesWellFormed | src/EncoderBase.h:382-415 | Every cell of all three tables is well formed, including the zero-filled full-table rows 4–6: the low nibble names one of the seven states and the high nibble is 0, `UP`, `DOWN` or `ERR`. |
| StateMachine.Lookup | src/EncoderBase.h:302-304 | The cell selected by a state in 0..6 and a two-bit input is well formed, so the state kept after masking off the tag is again in 0..6. |
| StateMachine.Xor2 | src/EncoderBase.h:299 | XOR with a two-bit mask keeps the input in 0..3 and leaves it unchanged exactly when the mask is 0. |
| StateMachine.Xor2IsXor | src/EncoderBase.h:229 | `Xor2` is the bitwise exclusive or `^` of the two-bit input and the mask, on all sixteen pairs. |
| StateMachine.Xor2Involution | src/EncoderBase.h:229 | Applying the inversion mask twice gives back the original two-bit value. |
| StateMachine.Xor2FullMask | src/EncoderBase.h:165-167 | The quarter mode's mask 0b11 flips both phase bits. |
| StateMachine.Input | src/EncoderBase.h:229 | The table input is in 0..3, and XOR-ing it with the mask gives back the raw sample, phase A in bit 1 and phase B in bit 0. |
| StateMachine.FlippedInput | src/EncoderBase.h:299 | Flipping both phase lines flips both bits of the table input, whatever the mask. |
| StateMachine.Run | src/EncoderBase.h:302-304 | Running a table over n inputs from a state in 0..6 gives n tags and ends in a state in 0..6. |
| StateMachine.RunAppend | src/EncoderBase.h:302-304 | Running over `xs + ys` is running over `xs` and then over `ys` from where `xs` ended, and the tags concatenate. |
| StateMachine.QuarterPeriods | src/EncoderBase.h:383-393 | From `A`, one clockwise period 00→01→11→10→00 of the quarter table returns to `A` with tags `[0,0,0,UP]`; the counter-clockwise period gives `[0,0,0,DOWN]`. |
| StateMachine.HalfPeriods | src/EncoderBase.h:396-406 | From `A`, one clockwise period of the half table returns to `A` with tags `[0,UP,0,UP]`; counter-clockwise gives `[0,DOWN,0,DOWN]`. |
| StateMachine.FullPeriods | src/EncoderBase.h:409-415 | From `A`, one clockwise period of the full table returns to `A` with four `UP`s; counter-clockwise gives four `DOWN`s. |
| StateMachine.ClockwisePeriod | src/EncoderBase.h:383-415 | In every table, one clockwise period from `A` returns to `A` with exactly 1, 2 or 4 `UP`s (quarter, half, full), no `DOWN` and no `ERR`. |
| StateMachine.CounterClockwisePeriod | src/EncoderBase.h:383-415 | In every table, one counter-clockwise period from `A` returns to `A` with exactly 1, 2 or 4 `DOWN`s, no `UP` and no `ERR`. |
| StateMachine.RepeatedCycle | src/EncoderBase.h:302-304 | An input cycle that returns a table to its start state, repeated k times, returns there again with k times each tag's count. |
| StateMachine.ClockwiseTurns | src/EncoderBase.h:383-415 | k clockwise periods from `A` end in `A` with k × (1, 2 or 4) `UP`s and no `DOWN` or `ERR`. |
| StateMachine.CounterClockwiseTurns | src/EncoderBase.h:383-415 | k counter-clockwise periods from `A` end in `A` with k × (1, 2 or 4) `DOWN`s and no `UP` or `ERR`. |
| StateMachine.QuarterDetentPeriods | src/EncoderBase.h:383-393 | From the detent state `C_cw` that `begin` seeds in the quarter modes, one clockwise period 10→00→01→11 returns to `C_cw` with tags `[0,UP,0,0]`; from `C_ccw` the counter-clockwise period 01→00→10→11 returns to `C_ccw` with `[0,DOWN,0,0]`. |
| StateMachine.QuarterDetentReversal | src/EncoderBase.h:383-393 | A counter-clockwise period from `C_cw` reports nothing and ends in `C_ccw`; a clockwise period from `C_ccw` reports nothing and ends in `C_cw`. So the first reversed detent after `begin` is not counted. |
| StateMachine.QuarterDetentClockwiseTurns | src/EncoderBase.h:383-393 | k clockwise detent-to-detent periods from `C_cw` end in `C_cw` with exactly k `UP`s and no `DOWN`. |
| StateMachine.QuarterDetentCounterClockwiseTurns | src/EncoderBase.h:383-393 | k counter-clockwise detent-to-detent periods from `C_ccw` end in `C_ccw` with exactly k `DOWN`s and no `UP`. |
| StateMachine.RestingIsQuiet | src/EncoderBase.h:383-415 | A state fed the phase pair it rests at maps to itself with no tag. This holds for every state `begin` can seed, in all three tables, and for every row of the quarter table. |
| StateMachine.DoubleFlipIsError | src/EncoderBase.h:383-414 | In the quarter table (all states) and the full table (states 0..3), an input with both phases flipped gives `ERR` and keeps the state. |
| StateMachine.HalfDoubleFlipIsError | src/EncoderBase.h:396-406 | In the half table a double flip is always `ERR`. It keeps the state except from `D_ccw`, which moves to `B_ccw`. |
| StateMachine.HalfRowSixAbsorbs | src/EncoderBase.h:405 | From half-table row `C_ccw`, every input sequence stays in `C_ccw` and reports one `ERR` per input. |
| StateMachine.FullUnlistedRows | src/EncoderBase.h:409-415 | The full table's unlisted rows 4–6 send every input to `A` with no tag. |
| StateMachine.FullStaysInListedRows | src/EncoderBase.h:410-414 | The full table never leads from any state into rows 4–6. |
| StateMachine.HalfNeverEntersRowSix | src/EncoderBase.h:397-404 | No half-table row other than `C_ccw` leads into `C_ccw`. |
| Acceleration.Elapsed | src/EncoderBase.h:240 | The unsigned 32-bit difference is a clock reading that, added to the previous reading modulo 2^32, gives the current one. Without wrap-around it is the plain difference. |
| Acceleration.Multiplier | src/EncoderBase.h:244-286 | The multiplier is in 1..20: 1 with no acceleration, at most 5 (Slow) or 12 (Medium), and 1 once the spacing reaches 100 ms (Slow) or 250 ms (Medium, Fast). |
| Acceleration.MultiplierNonIncreasing | src/EncoderBase.h:244-286 | In every mode, a longer spacing never gives a larger multiplier. |
| Acceleration.TopTiers | src/EncoderBase.h:249-274 | Below 20 ms the multipliers are 5, 12 and 20 for Slow, Medium and Fast. |
| Acceleration.AcceleratedDelta | src/EncoderBase.h:233-288 | With no acceleration the step is unchanged. Otherwise it is the step times the `Multiplier` of the 32-bit elapsed time, so it keeps its sign, grows at most twenty-fold, and is unchanged once the spacing reaches the mode's last tier. |
| Acceleration.LastUpdateAfter | src/EncoderBase.h:235-241 | With `NONE` the time stamp is kept, since the clock is not read; an accelerating mode stores the new reading. |
| Counter.CounterType.Max | src/EncoderBase.h:61-62 | A counter type's range is two's complement: the largest value is one less than the negated smallest. |
| Counter.CountUp | src/EncoderBase.h:306-337 | An UP step is accepted iff the value is below `maxVal` or the counter is periodic. Below `maxVal` the value moves to `min(value + delta, maxVal)` and the distance moved is reported. At `maxVal` a periodic counter wraps to `minVal` and reports the nominal delta; otherwise the value is written back as `maxVal` and 0 is reported. An accepted step reports 0 < r <= delta, and the bounds are preserved. |
| Counter.CountDown | src/EncoderBase.h:339-370 | The DOWN mirror of `CountUp` at `minVal`, with a negative delta. |
| Counter.DownMirrorsUp | src/EncoderBase.h:306-370 | A DOWN step is an UP step with the value, the bounds and the delta negated. |
| Counter.Drive | src/EncoderBase.h:306-370 | Over any sequence of steps, a value that starts within proper bounds stays within them. |
| Counter.SaturatingClimb | src/EncoderBase.h:310-336 | Non-periodic UP steps from at most `maxVal` add up, but stop at `maxVal`. |
| Counter.UnitUpIsModular | src/EncoderBase.h:310-333 | On a periodic counter, a unit UP step is `+1` modulo the size of the range. |
| Counter.UnitDownIsModular | src/EncoderBase.h:343-366 | On a periodic counter, a unit DOWN step is `-1` modulo the size of the range. |
| Counter.PeriodicUnitClimb | src/EncoderBase.h:310-333 | k unit UP steps on a periodic counter add k modulo the size of the range. |
| Counter.PeriodicUnitDescent | src/EncoderBase.h:343-366 | k unit DOWN steps on a periodic counter subtract k modulo the size of the range. |
| Counter.SaturatedUpIsRejected | src/EncoderBase.h:335-336 | On a non-periodic counter at `maxVal` an UP step is rejected, keeps the value and reports 0. |
| Turning.UnitDeltas | src/EncoderBase.h:303-341 | With acceleration off, an `UP` tag asks for +1, a `DOWN` tag for -1, and every other tag for no step. |
| Turning.UpTagsDrive | src/EncoderBase.h:306-379 | Tags with no `DOWN` among them move the counter as the same number of unit UP steps; `ERR` and empty tags leave it alone. |
| Turning.DownTagsDrive | src/EncoderBase.h:339-379 | Tags with no `UP` among them move the counter as the same number of unit DOWN steps. |
| Turning.ClockwiseTurningWraps | src/EncoderBase.h:302-337 | With acceleration off, k clockwise periods from `A` advance a periodic counter by k × (1, 2 or 4) modulo the size of its range. |
| Turning.CounterClockwiseTurningWraps | src/EncoderBase.h:302-370 | With acceleration off, k counter-clockwise periods from `A` move a periodic counter back by k × (1, 2 or 4) modulo the size of its range. |
| Turning.ClockwiseTurningSaturates | src/EncoderBase.h:302-337 | With acceleration off, k clockwise periods from `A` raise a non-periodic counter by k × (1, 2 or 4), stopping at `maxVal`. |
| Encoder.EncoderBase.constructor | src/EncoderBase.h:60-85 | A fresh engine: value 0, the type's full range, periodic, full-step table with mask 0, state `A`, no acceleration, no callbacks, both flags clear. |
| Encoder.EncoderBase.SetCountMode | src/EncoderBase.h:161-186 | Installs quarter/0b11, quarterInv → quarter/0b00, half/0b00, halfAlt → half/0b01 or full/0b00, and changes nothing else. |
| Encoder.EncoderBase.AttachCallback | src/EncoderBase.h:189-193 | Attaches or detaches the value callback. |
| Encoder.EncoderBase.AttachButtonCallback | src/EncoderBase.h:196-200 | Attaches or detaches the button callback. |
| Encoder.EncoderBase.AttachErrorCallback | src/EncoderBase.h:109 | Attaches or detaches the error callback. |
| Encoder.EncoderBase.SetLimits | src/EncoderBase.h:203-217 | Installs `min`, `max` and `periodic` when `min < max`; otherwise installs the type's full range, periodic. The bounds stay proper and the value is not touched. |
| Encoder.EncoderBase.SetAcceleration | src/EncoderBase.h:220-224 | Installs the acceleration mode. |
| Encoder.EncoderBase.Begin | src/EncoderBase.h:227-230 | Seeds the state with the sample XOR the mask, which is one of the resting states 0..3. |
| Encoder.EncoderBase.SetValue | src/EncoderBase.h:141-144 | Overwrites the value without clamping. |
| Encoder.EncoderBase.GetValue | src/EncoderBase.h:126-138 | Returns the value, which is representable in the counter type. |
| Encoder.EncoderBase.ValueChanged | src/EncoderBase.h:118-123 | Returns the value-changed flag and clears it. |
| Encoder.EncoderBase.ButtonChanged | src/EncoderBase.h:147-152 | Returns the button-changed flag and clears it. |
| Encoder.EncoderBase.GetAcceleratedDelta | src/EncoderBase.h:233-288 | Returns `AcceleratedDelta` for the stored time stamp, and stores the new stamp only in an accelerating mode. |
| Encoder.EncoderBase.SampleButton | src/EncoderBase.h:293-297 | A reported button change sets the button flag and calls the button callback once with the button state; no change touches nothing. |
| Encoder.EncoderBase.CountUpStep | src/EncoderBase.h:306-337 | Applies `CountUp` with the accelerated +1. It sets the value flag and calls the value callback once with (new value, returned delta) exactly when the step is accepted, and preserves `InBounds`. |
| Encoder.EncoderBase.CountDownStep | src/EncoderBase.h:339-370 | The DOWN mirror of `CountUpStep`. |
| Encoder.EncoderBase.Decode | src/EncoderBase.h:299-379 | Keeps the low nibble of the selected cell as the new state. An `UP` or `DOWN` tag moves the value as `CountUp`/`CountDown`. Any other tag leaves the value and its flag alone, returns 0, and calls the error callback with the value on `ERR`. `InBounds` is preserved. |
| Encoder.EncoderBase.Update | src/EncoderBase.h:290-380 | Samples the button first, then decodes. The new state, value, flags and return value are as for `SampleButton` followed by `Decode`, and the callbacks are logged in that order. |
| Scenarios.WrapAtMax | src/EncoderBase.h:327-333 | A periodic counter at `maxVal` wraps to `minVal` on an `UP` and returns the nominal delta 1. |
| Scenarios.PartialDelta | src/EncoderBase.h:318-325 | A step that acceleration makes 5, taken 2 below a non-periodic `maxVal`, lands on `maxVal` and returns 2. |
| Scenarios.JumpIsError | src/EncoderBase.h:373-379 | A jump from 00 to 11 calls the error callback once with the value, and leaves the value and its flag alone. |
| Scenarios.ChangeFlagReadsOnce | src/EncoderBase.h:118-123 | After a counted step the value-changed flag reads true once, then false. |
| Scenarios.QuietAfterBegin | src/EncoderBase.h:227-230 | In every count mode and for every phase pair, an `update` with the phases `begin` was seeded with keeps the state and the value, leaves the flag clear and returns 0. |
| Scenarios.DoubleFlipAfterBegin | src/EncoderBase.h:372-379 | In every count mode, an `update` that flips both phases after `begin` is an error: value and flag untouched, 0 returned, and the error callback called once with the value. |

## Left out

- The platform clock `millis()` (src/EncoderBase.h:239) is not modelled. The current reading is the `now` parameter.
- The `ATOMIC()` interrupt guard in `getValue` is not modelled; the value is read plainly. Concurrency between `update` and the client is not modelled.
- `EncoderButton` is not part of this model. `button.update(btn)` is the `buttonEdge` parameter and `button.read()` is the `buttonState` parameter. `getButton` forwards to the button and is not modelled.
- Callback storage (function pointer or `inplace_function`) and the `USE_ERROR_CALLBACKS` / `USE_MODERN_CALLBACKS` switches are not modelled. Each callback is an attached flag plus the ghost `events` log, and the error path is modelled as compiled in.
- Encoder.EncoderBase.Update: callbacks are only logged, so the model assumes they never call back into the engine. In the source they run synchronously inside `update`; for example, the button callback at src/EncoderBase.h:296 runs before the decode, and a callback that calls `setValue` or `setCountMode` would change what the decode sees.
- `errCallback(value)` passes one argument to a two-parameter callback type. The model logs an `ErrorEvent` carrying the value only.
- The `EncPlexBase` friend, HAL pin reading and `config.h` are not part of this model.
- The `static_assert` restricting `counter_t` to signed integral types is a compile-time check. It becomes the `CounterType` choice of `Int8`, `Int16`, `Int32` or `Int64`.
- Encoder.EncoderBase.Decode: `value + delta` uses unbounded integers, so undefined signed overflow for `int`-wide and wider counters near the type's extremes is not modelled. A step that stays between representable bounds matches the source.
- Encoder.EncoderBase.Update: phases are 0 or 1 (`Phase`); other `uint_fast8_t` pin values are not modelled.
- Encoder.EncoderBase.Update: the `stateMachine == nullptr` guard is not modelled. It cannot fire on a constructed object and exists for calls made before the constructor has run; the model has no unconstructed state.
- Encoder.EncoderBase.Update: the default argument `btn = 0` (src/EncoderBase.h:53) is not modelled; callers pass the button inputs explicitly. This is only a calling convenience.
- Encoder.EncoderBase.SetLimits: the default argument `periodic = false` (src/EncoderBase.h:43) is not modelled; callers pass `periodic` explicitly. This is only a calling convenience.
- Turning.ClockwiseTurningWraps: the whole-turn lemmas are stated on the value level (`Drive` over the tags a table emits), with acceleration off. Turns with acceleration are covered only step by step by `Decode`.

=== FILE: acceleration.dfy ===
/**
 * The acceleration policy: the time since the previous UP/DOWN step, measured on the
 * 32-bit millisecond clock, picks an integer multiplier for the step.
 */
module Acceleration {

  datatype AccelerationMode = None | Slow | Medium | Fast

  /** The source's unsigned long is 32 bits wide, so clock readings and their differences wrap at 2^32. */
  const ClockModulus: int := 0x1_0000_0000

  /** A reading of the millisecond clock. */
  predicate IsClock(t: int)
  {
    0 <= t < ClockModulus
  }

  /**
   * The unsigned difference now - last: the forward distance from last to now around
   * the 32-bit clock, so a clock that wrapped between the two readings still gives the
   * true spacing.
   */
  function Elapsed(now: int, last: int): (e: int)
    requires IsClock(now) && IsClock(last)
    ensures IsClock(e)
    ensures (last + e) % ClockModulus == now
    ensures last <= now ==> e == now - last
  {
    (now - last) % ClockModulus
  }

  /**
   * The tiered multiplier for a given spacing between steps. It is at least 1, so
   * acceleration never shrinks or reverses a step, and it settles to 1 once the spacing
   * reaches 100 ms (Slow) or 250 ms (Medium, Fast).
   */
  function Multiplier(mode: AccelerationMode, elapsed: int): (m: int)
    requires elapsed >= 0
    ensures 1 <= m <= 20
    ensures mode == None ==> m == 1
    ensures mode == Slow && elapsed >= 100 ==> m == 1
    ensures (mode == Medium || mode == Fast) && elapsed >= 250 ==> m == 1
    ensures mode == Slow ==> m <= 5
    ensures mode == Medium ==> m <= 12
  {
    match mode
    case Slow =>
      if elapsed < 20 then 5
      else if elapsed < 50 then 3
      else if elapsed < 100 then 2
      else 1
    case Medium =>
      if elapsed < 30 then 12
      else if elapsed < 60 then 6
      else if elapsed < 120 then 3
      else if elapsed < 250 then 2
      else 1
    case Fast =>
      if elapsed < 30 then 20
      else if elapsed < 60 then 12
      else if elapsed < 120 then 6
      else if elapsed < 250 then 3
      else 1
    case None => 1
  }

  /** Faster turning never gives a smaller multiplier: the multiplier is non-increasing in the spacing. */
  lemma MultiplierNonIncreasing(mode: AccelerationMode, e1: int, e2: int)
    requires 0 <= e1 <= e2
    ensures Multiplier(mode, e2) <= Multiplier(mode, e1)
  {
  }

  /** The fastest turning gets the top tier of each mode: 5, 12 and 20. */
  lemma TopTiers(e: int)
    requires 0 <= e < 20
    ensures Multiplier(Slow, e) == 5 && Multiplier(Medium, e) == 12 && Multiplier(Fast, e) == 20
  {
  }

  /**
   * The step that acceleration makes of baseDelta at clock reading now when the previous
   * step was at last: unchanged with no acceleration, otherwise scaled by the multiplier.
   * The sign is kept and the size grows by at most twenty times.
   */
  function AcceleratedDelta(mode: AccelerationMode, baseDelta: int, now: int, last: int): (d: int)
    requires IsClock(now) && IsClock(last)
    ensures mode == None ==> d == baseDelta
    ensures baseDelta > 0 ==> baseDelta <= d <= 20 * baseDelta
    ensures baseDelta < 0 ==> 20 * baseDelta <= d <= baseDelta
    ensures baseDelta == 0 ==> d == 0
    ensures mode == Slow && Elapsed(now, last) >= 100 ==> d == baseDelta
    ensures mode != Slow && Elapsed(now, last) >= 250 ==> d == baseDelta
    ensures mode != None ==> d == baseDelta * Multiplier(mode, Elapsed(now, last))
  {
    if mode == None then baseDelta
    else
      var m := Multiplier(mode, Elapsed(now, last));
      ScaleKeepsSign(baseDelta, m);
      baseDelta * m
  }

  /**
   * The clock reading kept after a step: with no acceleration the stamp is kept, since
   * the clock is not read; an accelerating mode stores the reading it took.
   */
  function LastUpdateAfter(mode: AccelerationMode, now: int, last: int): (t: int)
    requires IsClock(now) && IsClock(last)
    ensures IsClock(t)
    ensures mode == None ==> t == last
    ensures mode != None ==> t == now
  {
    if mode == None then last else now
  }

  lemma ScaleKeepsSign(b: int, m: int)
    requires 1 <= m <= 20
    ensures b > 0 ==> b <= b * m <= 20 * b
    ensures b < 0 ==> 20 * b <= b * m <= b
    ensures b == 0 ==> b * m == 0
    ensures m == 1 ==> b * m == b
  {
  }
}

=== FILE: counter.dfy ===
/**
 * The counter engine: a signed value between minVal and maxVal that an UP or DOWN step
 * moves by an (accelerated) delta, saturating at the bounds or wrapping around them.
 */
module Counter {

  /** The signed integral types the counter can be instantiated with. */
  datatype CounterType = Int8 | Int16 | Int32 | Int64
  {
    /** The type's smallest value: -2^(width-1). */
    function Min(): (m: int)
      ensures m < 0
    {
      match this
      case Int8 => -0x80
      case Int16 => -0x8000
      case Int32 => -0x8000_0000
      case Int64 => -0x8000_0000_0000_0000
    }

    /** The type's largest value: 2^(width-1) - 1. */
    function Max(): (m: int)
      ensures m == -Min() - 1
    {
      match this
      case Int8 => 0x7F
      case Int16 => 0x7FFF
      case Int32 => 0x7FFF_FFFF
      case Int64 => 0x7FFF_FFFF_FFFF_FFFF
    }

    /** Whether x is representable in the type. */
    predicate Holds(x: int)
    {
      Min() <= x <= Max()
    }
  }

  /** The bounds and the wrap policy. */
  datatype Limits = Limits(minVal: int, maxVal: int, periodic: bool)
  {
    predicate Contains(value: int)
    {
      minVal <= value <= maxVal
    }
  }

  /** The outcome of one UP or DOWN step: the new value, the delta reported, and whether the step was accepted. */
  datatype Step = Step(value: int, delta: int, accepted: bool)

  function Least(a: int, b: int): int { if a <= b then a else b }

  function Greatest(a: int, b: int): int { if a >= b then a else b }

  /**
   * An UP step by delta >= 1. Below maxVal the value moves up by delta but never past
   * maxVal, and the reported delta is the distance actually moved. At (or above) maxVal
   * a periodic counter wraps to minVal and reports the nominal delta; a non-periodic one
   * stays at maxVal, reports 0 and the step is not accepted.
   */
  function CountUp(value: int, lim: Limits, delta: int): (s: Step)
    requires delta >= 1
    ensures s.accepted <==> value < lim.maxVal || lim.periodic
    ensures value < lim.maxVal ==> s.value == Least(value + delta, lim.maxVal) && s.delta == s.value - value
    ensures value >= lim.maxVal && lim.periodic ==> s.value == lim.minVal && s.delta == delta
    ensures !s.accepted ==> s.value == lim.maxVal && s.delta == 0
    ensures s.accepted ==> 0 < s.delta <= delta
    ensures lim.minVal < lim.maxVal && lim.Contains(value) ==> lim.Contains(s.value)
  {
    if value + delta <= lim.maxVal then Step(value + delta, delta, true)
    else if value < lim.maxVal then Step(lim.maxVal, lim.maxVal - value, true)
    else if lim.periodic then Step(lim.minVal, delta, true)
    else Step(lim.maxVal, 0, false)
  }

  /** A DOWN step by delta <= -1: the mirror image of CountUp at minVal. */
  function CountDown(value: int, lim: Limits, delta: int): (s: Step)
    requires delta <= -1
    ensures s.accepted <==> value > lim.minVal || lim.periodic
    ensures value > lim.minVal ==> s.value == Greatest(value + delta, lim.minVal) && s.delta == s.value - value
    ensures value <= lim.minVal && lim.periodic ==> s.value == lim.maxVal && s.delta == delta
    ensures !s.accepted ==> s.value == lim.minVal && s.delta == 0
    ensures s.accepted ==> delta <= s.delta < 0
    ensures lim.minVal < lim.maxVal && lim.Contains(value) ==> lim.Contains(s.value)
  {
    if value + delta >= lim.minVal then Step(value + delta, delta, true)
    else if value > lim.minVal then Step(lim.minVal, lim.minVal - value, true)
    else if lim.periodic then Step(lim.maxVal, delta, true)
    else Step(lim.minVal, 0, false)
  }

  /** Limits seen in a mirror: [min, max] becomes [-max, -min]. */
  function Mirror(lim: Limits): Limits
  {
    Limits(-lim.maxVal, -lim.minVal, lim.periodic)
  }

  /** DOWN is UP seen in a mirror: negate the value, the bounds and the delta. */
  lemma DownMirrorsUp(value: int, lim: Limits, delta: int)
    requires delta <= -1
    ensures var up := CountUp(-value, Mirror(lim), -delta);
            CountDown(value, lim, delta) == Step(-up.value, -up.delta, up.accepted)
  {
  }

  /** One update's effect on the value: a positive delta is an UP step, a negative one DOWN, zero no step. */
  function Apply(value: int, lim: Limits, delta: int): int
  {
    if delta > 0 then CountUp(value, lim, delta).value
    else if delta < 0 then CountDown(value, lim, delta).value
    else value
  }

  /**
   * The value after a sequence of updates, each given by its accelerated delta. However
   * the steps come, a value that starts within proper bounds stays within them.
   */
  function Drive(value: int, lim: Limits, deltas: seq<int>): (v: int)
    ensures lim.minVal < lim.maxVal && lim.Contains(value) ==> lim.Contains(v)
    decreases |deltas|
  {
    if deltas == [] then value else Drive(Apply(value, lim, deltas[0]), lim, deltas[1..])
  }

  function Sum(deltas: seq<int>): int
  {
    if deltas == [] then 0 else deltas[0] + Sum(deltas[1..])
  }

  predicate AllUp(deltas: seq<int>)
  {
    forall k :: 0 <= k < |deltas| ==> deltas[k] >= 1
  }

  lemma {:induction false} SumOfUpIsPositive(deltas: seq<int>)
    requires AllUp(deltas)
    ensures Sum(deltas) >= |deltas|
    decreases |deltas|
  {
    if deltas != [] {
      SumOfUpIsPositive(deltas[1..]);
    }
  }

  /**
   * Sustained clockwise turning of a non-periodic counter climbs monotonically and
   * saturates: the value ends at the sum of the steps, cut off at maxVal.
   */
  lemma {:induction false} SaturatingClimb(value: int, lim: Limits, deltas: seq<int>)
    requires !lim.periodic && value <= lim.maxVal
    requires AllUp(deltas)
    ensures Drive(value, lim, deltas) == Least(value + Sum(deltas), lim.maxVal)
    decreases |deltas|
  {
    if deltas != [] {
      var next := Apply(value, lim, deltas[0]);
      assert next == Least(value + deltas[0], lim.maxVal);
      SaturatingClimb(next, lim, deltas[1..]);
      SumOfUpIsPositive(deltas[1..]);
    }
  }

  /**
   * With unit steps a periodic counter is a counter modulo the number of values in
   * [minVal, maxVal]: one UP moves to the next value and from maxVal to minVal.
   */
  lemma UnitUpIsModular(value: int, lim: Limits)
    requires lim.periodic && lim.minVal < lim.maxVal && lim.Contains(value)
    ensures var n := lim.maxVal - lim.minVal + 1;
            CountUp(value, lim, 1).value == lim.minVal + (value - lim.minVal + 1) % n
  {
    var n := lim.maxVal - lim.minVal + 1;
    var k := value - lim.minVal;
    if value < lim.maxVal {
      assert 0 <= k + 1 < n;
      assert (k + 1) % n == k + 1;
    } else {
      assert k + 1 == n;
      assert (k + 1) % n == 0;
    }
  }

  /** One DOWN with unit steps on a periodic counter: the previous value, and from minVal to maxVal. */
  lemma UnitDownIsModular(value: int, lim: Limits)
    requires lim.periodic && lim.minVal < lim.maxVal && lim.Contains(value)
    ensures var n := lim.maxVal - lim.minVal + 1;
            CountDown(value, lim, -1).value == lim.minVal + (value - lim.minVal - 1) % n
  {
    var n := lim.maxVal - lim.minVal + 1;
    var k := value - lim.minVal;
    if value > lim.minVal {
      assert 0 <= k - 1 < n;
      assert (k - 1) % n == k - 1;
    } else {
      assert k - 1 == -1;
      assert (k - 1) % n == n - 1;
    }
  }

  /** k steps of the same delta d. */
  function Units(k: nat, d: int): (ds: seq<int>)
    ensures |ds| == k
    ensures forall j :: 0 <= j < k ==> ds[j] == d
  {
    if k == 0 then [] else [d] + Units(k - 1, d)
  }

  lemma MulAtLeast(d: int, n: int)
    requires d >= 1 && n > 0
    ensures d * n >= n
  {
    assert d * n == (d - 1) * n + n;
    assert (d - 1) * n >= 0;
  }

  /** The residue modulo n is the r of any decomposition x = q * n + r with 0 <= r < n. */
  lemma ModUnique(x: int, n: int, q: int, r: int)
    requires n > 0 && 0 <= r < n && x == q * n + r
    ensures x % n == r
  {
    var q' := x / n;
    var r' := x % n;
    assert x == q' * n + r';
    assert q * n - q' * n == r' - r;
    assert q * n - q' * n == (q - q') * n;
    if q > q' {
      MulAtLeast(q - q', n);
    } else if q < q' {
      assert q' * n - q * n == (q' - q) * n;
      MulAtLeast(q' - q, n);
    }
  }

  /** Adding to a residue is adding to the number it is the residue of, modulo n. */
  lemma ModAddLeft(a: int, b: int, n: int)
    requires n > 0
    ensures (a % n + b) % n == (a + b) % n
  {
    var s := a % n + b;
    var t := a + b;
    assert a == (a / n) * n + a % n;
    assert t == s + (a / n) * n;
    assert s == (s / n) * n + s % n;
    assert t == (s / n + a / n) * n + s % n;
    ModUnique(t, n, s / n + a / n, s % n);
  }

  /**
   * k unit UP steps on a periodic counter count modulo the size of its range: from value
   * they land at minVal + (value - minVal + k) mod n, n = maxVal - minVal + 1.
   */
  lemma {:induction false} PeriodicUnitClimb(value: int, lim: Limits, k: nat)
    requires lim.periodic && lim.minVal < lim.maxVal && lim.Contains(value)
    ensures Drive(value, lim, Units(k, 1)) == lim.minVal + (value - lim.minVal + k) % (lim.maxVal - lim.minVal + 1)
    decreases k
  {
    var n := lim.maxVal - lim.minVal + 1;
    if k == 0 {
      assert Units(k, 1) == [];
      ModUnique(value - lim.minVal, n, 0, value - lim.minVal);
    } else {
      var rest := Units(k - 1, 1);
      assert Units(k, 1) == [1] + rest;
      assert Units(k, 1)[0] == 1 && Units(k, 1)[1..] == rest;
      var next := Apply(value, lim, 1);
      assert Drive(value, lim, Units(k, 1)) == Drive(next, lim, rest);
      UnitUpIsModular(value, lim);
      var a := value - lim.minVal + 1;
      assert next == lim.minVal + a % n;
      PeriodicUnitClimb(next, lim, k - 1);
      assert Drive(next, lim, rest) == lim.minVal + (a % n + (k - 1)) % n;
      ModAddLeft(a, k - 1, n);
      assert a + (k - 1) == value - lim.minVal + k;
    }
  }

  /** The mirror of PeriodicUnitClimb: k unit DOWN steps land at minVal + (value - minVal - k) mod n. */
  lemma {:induction false} PeriodicUnitDescent(value: int, lim: Limits, k: nat)
    requires lim.periodic && lim.minVal < lim.maxVal && lim.Contains(value)
    ensures Drive(value, lim, Units(k, -1)) == lim.minVal + (value - lim.minVal - k) % (lim.maxVal - lim.minVal + 1)
    decreases k
  {
    var n := lim.maxVal - lim.minVal + 1;
    if k == 0 {
      assert Units(k, -1) == [];
      ModUnique(value - lim.minVal, n, 0, value - lim.minVal);
    } else {
      var rest := Units(k - 1, -1);
      assert Units(k, -1) == [-1] + rest;
      assert Units(k, -1)[0] == -1 && Units(k, -1)[1..] == rest;
      var next := Apply(value, lim, -1);
      assert Drive(value, lim, Units(k, -1)) == Drive(next, lim, rest);
      UnitDownIsModular(value, lim);
      var a := value - lim.minVal - 1;
      assert next == lim.minVal + a % n;
      PeriodicUnitDescent(next, lim, k - 1);
      assert Drive(next, lim, rest) == lim.minVal + (a % n - (k - 1)) % n;
      ModAddLeft(a, -(k - 1), n);
      assert a + -(k - 1) == value - lim.minVal - k;
    }
  }

  /** A non-periodic counter at maxVal rejects every UP step, however large, and stays put. */
  lemma SaturatedUpIsRejected(lim: Limits, delta: int)
    requires !lim.periodic && delta >= 1
    ensures CountUp(lim.maxVal, lim, delta) == Step(lim.maxVal, 0, false)
  {
  }
}

=== FILE: encoder.dfy ===
/**
 * One encoder's decode engine: the fields the source's EncoderBase updates in place, its
 * configuration methods, the read-and-clear flags and the per-sample update.
 *
 * Callbacks are modelled by whether one is attached and a ghost log of the calls made,
 * in order. The debounced push button is an outside collaborator: update receives
 * whether it reported a change and the state it reads back.
 */
module Encoder {
  import opened StateMachine
  import opened Acceleration
  import opened Counter

  /** One callback invocation. */
  datatype Event =
    | ValueEvent(value: int, delta: int)   // value callback: new value, applied delta
    | ButtonEvent(state: int)              // button callback: debounced button state
    | ErrorEvent(value: int)               // error callback: current, unchanged value

  class EncoderBase {
    /** The counter_t the engine is instantiated with. */
    const counterType: CounterType

    var value: int
    var minVal: int
    var maxVal: int
    var valChanged: bool
    var btnChanged: bool
    var periodic: bool
    var invert: Mask
    var hasCallback: bool
    var hasButtonCallback: bool
    var hasErrorCallback: bool
    var accelMode: AccelerationMode
    var lastUpdateTime: int
    /** The installed transition table: one of QuarterRows, HalfRows, FullRows. */
    var stateMachine: seq<seq<Byte>>
    var curState: Byte

    /** Every callback invocation so far, oldest first. */
    ghost var events: seq<Event>

    /**
     * The object invariant: the value and the bounds are representable, the bounds are
     * proper, the installed table is one of the three constant tables, the stored state is
     * one of the seven and the time stamp is a clock reading.
     */
    ghost predicate Valid()
      reads this
    {
      && counterType.Holds(value)
      && counterType.Holds(minVal)
      && counterType.Holds(maxVal)
      && minVal < maxVal
      && (stateMachine == QuarterRows || stateMachine == HalfRows || stateMachine == FullRows)
      && IsTable(stateMachine)
      && curState < 7
      && IsClock(lastUpdateTime)
    }

    /** The counter lies within its bounds; kept by Update, but not by SetValue or SetLimits. */
    ghost predicate InBounds()
      reads this
    {
      minVal <= value <= maxVal
    }

    function CurrentLimits(): Limits
      reads this`minVal, this`maxVal, this`periodic
    {
      Limits(minVal, maxVal, periodic)
    }

    /** The table cell a sample of the given phases selects in the current state. */
    function CellFor(phaseA: Phase, phaseB: Phase): Byte
      reads this`stateMachine, this`curState, this`invert
      requires IsTable(stateMachine) && curState < 7
    {
      stateMachine[curState][Input(phaseA, phaseB, invert)]
    }

    /** What an UP transition at clock reading now does to the counter. */
    function UpStep(now: int): Step
      reads this`value, this`minVal, this`maxVal, this`periodic, this`accelMode, this`lastUpdateTime
      requires IsClock(now) && IsClock(lastUpdateTime)
    {
      CountUp(value, CurrentLimits(), AcceleratedDelta(accelMode, 1, now, lastUpdateTime))
    }

    /** What a DOWN transition at clock reading now does to the counter. */
    function DownStep(now: int): Step
      reads this`value, this`minVal, this`maxVal, this`periodic, this`accelMode, this`lastUpdateTime
      requires IsClock(now) && IsClock(lastUpdateTime)
    {
      CountDown(value, CurrentLimits(), AcceleratedDelta(accelMode, -1, now, lastUpdateTime))
    }

    /** The button callback call a sample makes: one call on a reported change, if a callback is attached. */
    ghost function ButtonCalls(buttonEdge: bool, buttonState: int): seq<Event>
      reads this`hasButtonCallback
    {
      if buttonEdge && hasButtonCallback then [ButtonEvent(buttonState)] else []
    }

    /** The value callback call a step makes: one call for an accepted step, if a callback is attached. */
    ghost function ValueCalls(s: Step): seq<Event>
      reads this`hasCallback
    {
      if s.accepted && hasCallback then [ValueEvent(s.value, s.delta)] else []
    }

    /** The error callback call a cell makes: one call, with the current value, for an ERR tag if a callback is attached. */
    ghost function ErrorCalls(cell: Byte): seq<Event>
      reads this`hasErrorCallback, this`value
    {
      if Tag(cell) == ERR && hasErrorCallback then [ErrorEvent(value)] else []
    }

    /** A fresh engine: value 0, the type's full range, periodic, full-step table, no acceleration. */
    constructor (counterType: CounterType)
      ensures Valid() && InBounds()
      ensures this.counterType == counterType
      ensures value == 0 && minVal == counterType.Min() && maxVal == counterType.Max() && periodic
      ensures !valChanged && !btnChanged
      ensures invert == 0 && stateMachine == Rows(FullTable) && curState == A
      ensures accelMode == None && lastUpdateTime == 0
      ensures !hasCallback && !hasButtonCallback && !hasErrorCallback
      ensures events == []
    {
      this.counterType := counterType;
      value := 0;
      minVal := counterType.Min();
      maxVal := counterType.Max();
      valChanged := false;
      btnChanged := false;
      periodic := true;
      invert := 0;
      hasCallback := false;
      hasButtonCallback := false;
      hasErrorCallback := false;
      accelMode := None;
      lastUpdateTime := 0;
      stateMachine := FullRows;
      curState := A;
      events := [];
      TablesWellFormed(FullTable);
    }

    /** Installs the table and the inversion mask of a count mode. */
    method SetCountMode(mode: CountMode)
      requires Valid()
      modifies this`stateMachine, this`invert
      ensures Valid()
      ensures stateMachine == Rows(TableOf(mode))
      ensures mode == Quarter ==> stateMachine == Rows(QtrTable) && invert == 0x3
      ensures mode == QuarterInv ==> stateMachine == Rows(QtrTable) && invert == 0x0
      ensures mode == Half ==> stateMachine == Rows(HalfTable) && invert == 0x0
      ensures mode == HalfAlt ==> stateMachine == Rows(HalfTable) && invert == 0x1
      ensures mode == Full ==> stateMachine == Rows(FullTable) && invert == 0x0
    {
      match mode {
        case Quarter =>
          stateMachine := QuarterRows;
          invert := 0x3;
        case QuarterInv =>
          stateMachine := QuarterRows;
          invert := 0x0;
        case Half =>
          stateMachine := HalfRows;
          invert := 0x0;
        case HalfAlt =>
          stateMachine := HalfRows;
          invert := 0x1;
        case Full =>
          stateMachine := FullRows;
          invert := 0x0;
      }
      TablesWellFormed(QtrTable);
      TablesWellFormed(HalfTable);
      TablesWellFormed(FullTable);
    }

    /** Attaches (true) or detaches (false, a null callback) the value callback. */
    method AttachCallback(attached: bool)
      requires Valid()
      modifies this`hasCallback
      ensures Valid()
      ensures hasCallback == attached
    {
      hasCallback := attached;
    }

    /** Attaches or detaches the button callback. */
    method AttachButtonCallback(attached: bool)
      requires Valid()
      modifies this`hasButtonCallback
      ensures Valid()
      ensures hasButtonCallback == attached
    {
      hasButtonCallback := attached;
    }

    /** Attaches or detaches the error callback (present when error callbacks are compiled in). */
    method AttachErrorCallback(attached: bool)
      requires Valid()
      modifies this`hasErrorCallback
      ensures Valid()
      ensures hasErrorCallback == attached
    {
      hasErrorCallback := attached;
    }

    /**
     * Installs proper limits as given; for min >= max falls back to the type's full range,
     * periodic. Either way the bounds stay proper. The value is not clamped.
     */
    method SetLimits(min: int, max: int, periodic: bool)
      requires Valid()
      requires counterType.Holds(min) && counterType.Holds(max)
      modifies this`minVal, this`maxVal, this`periodic
      ensures Valid()
      ensures min < max ==> minVal == min && maxVal == max && this.periodic == periodic
      ensures min >= max ==> minVal == counterType.Min() && maxVal == counterType.Max() && this.periodic
    {
      if min < max {
        this.minVal := min;
        this.maxVal := max;
        this.periodic := periodic;
      } else {
        this.minVal := counterType.Min();
        this.maxVal := counterType.Max();
        this.periodic := true;
      }
    }

    method SetAcceleration(mode: AccelerationMode)
      requires Valid()
      modifies this`accelMode
      ensures Valid()
      ensures accelMode == mode
    {
      this.accelMode := mode;
    }

    /**
     * Seeds the state from the encoder's current phases, through the inversion mask; the
     * seeded state is one of the four resting states 0..3.
     */
    method Begin(phaseA: Phase, phaseB: Phase)
      requires Valid()
      modifies this`curState
      ensures Valid()
      ensures curState == Input(phaseA, phaseB, invert) && curState < 4
    {
      curState := Input(phaseA, phaseB, invert);
    }

    /** Overwrites the value directly, bypassing the bounds. */
    method SetValue(val: int)
      requires Valid() && counterType.Holds(val)
      modifies this`value
      ensures Valid() && value == val
    {
      value := val;
    }

    method GetValue() returns (v: int)
      requires Valid()
      ensures v == value && counterType.Holds(v)
    {
      v := value;
    }

    /** Reports whether the value changed since the last call, and clears the flag. */
    method ValueChanged() returns (changed: bool)
      requires Valid()
      modifies this`valChanged
      ensures Valid()
      ensures changed == old(valChanged) && !valChanged
    {
      changed := valChanged;
      valChanged := false;
    }

    /** Reports whether the button changed since the last call, and clears the flag. */
    method ButtonChanged() returns (changed: bool)
      requires Valid()
      modifies this`btnChanged
      ensures Valid()
      ensures changed == old(btnChanged) && !btnChanged
    {
      changed := btnChanged;
      btnChanged := false;
    }

    /**
     * Scales baseDelta by the acceleration multiplier for the time since the previous
     * step. With acceleration on it stamps now as the time of this step.
     */
    method GetAcceleratedDelta(baseDelta: int, now: int) returns (delta: int)
      requires Valid() && IsClock(now)
      modifies this`lastUpdateTime
      ensures Valid()
      ensures delta == AcceleratedDelta(accelMode, baseDelta, now, old(lastUpdateTime))
      ensures lastUpdateTime == LastUpdateAfter(accelMode, now, old(lastUpdateTime))
    {
      if accelMode == None {
        return baseDelta;
      }
      var timeDelta := Elapsed(now, lastUpdateTime);
      lastUpdateTime := now;
      var multiplier := Multiplier(accelMode, timeDelta);
      delta := baseDelta * multiplier;
    }

    /** The button part of a sample: latch the flag and call the button callback on a reported change. */
    method SampleButton(buttonEdge: bool, buttonState: int)
      requires Valid()
      modifies this`btnChanged, this`events
      ensures Valid()
      ensures btnChanged == (old(btnChanged) || buttonEdge)
      ensures events == old(events) + ButtonCalls(buttonEdge, buttonState)
    {
      if buttonEdge {
        btnChanged := true;
        if hasButtonCallback {
          events := events + [ButtonEvent(buttonState)];
        }
      }
    }

    /**
     * The counter part of an UP transition: the accelerated step applied by CountUp. An
     * accepted step latches the value flag and calls the value callback once with the
     * new value and the reported delta; a rejected one touches neither.
     */
    method CountUpStep(now: int) returns (r: int)
      requires Valid() && IsClock(now)
      modifies this`value, this`valChanged, this`lastUpdateTime, this`events
      ensures Valid()
      ensures old(InBounds()) ==> InBounds()
      ensures value == old(UpStep(now)).value && r == old(UpStep(now)).delta
      ensures valChanged == (old(valChanged) || old(UpStep(now)).accepted)
      ensures events == old(events) + ValueCalls(old(UpStep(now)))
      ensures lastUpdateTime == LastUpdateAfter(accelMode, now, old(lastUpdateTime))
      ensures counterType.Holds(r)
    {
      var delta := GetAcceleratedDelta(1, now);
      if value + delta <= maxVal {
        value := value + delta;
        valChanged := true;
        if hasCallback {
          events := events + [ValueEvent(value, delta)];
        }
        return delta;
      } else if value < maxVal {
        var actualDelta := maxVal - value;
        value := maxVal;
        valChanged := true;
        if hasCallback {
          events := events + [ValueEvent(value, actualDelta)];
        }
        return actualDelta;
      } else if periodic {
        value := minVal;
        valChanged := true;
        if hasCallback {
          events := events + [ValueEvent(value, delta)];
        }
        return delta;
      }
      value := maxVal;
      return 0;
    }

    /** The counter part of a DOWN transition: the mirror image of CountUpStep. */
    method CountDownStep(now: int) returns (r: int)
      requires Valid() && IsClock(now)
      modifies this`value, this`valChanged, this`lastUpdateTime, this`events
      ensures Valid()
      ensures old(InBounds()) ==> InBounds()
      ensures value == old(DownStep(now)).value && r == old(DownStep(now)).delta
      ensures valChanged == (old(valChanged) || old(DownStep(now)).accepted)
      ensures events == old(events) + ValueCalls(old(DownStep(now)))
      ensures lastUpdateTime == LastUpdateAfter(accelMode, now, old(lastUpdateTime))
      ensures counterType.Holds(r)
    {
      var delta := GetAcceleratedDelta(-1, now);
      if value + delta >= minVal {
        value := value + delta;
        valChanged := true;
        if hasCallback {
          events := events + [ValueEvent(value, delta)];
        }
        return delta;
      } else if value > minVal {
        var actualDelta := minVal - value;
        value := minVal;
        valChanged := true;
        if hasCallback {
          events := events + [ValueEvent(value, actualDelta)];
        }
        return actualDelta;
      } else if periodic {
        value := maxVal;
        valChanged := true;
        if hasCallback {
          events := events + [ValueEvent(value, delta)];
        }
        return delta;
      }
      value := minVal;
      return 0;
    }

    /**
     * The phase decoder part of a sample: look up the cell for the inverted sample, move to
     * its state, and act on its tag: the counter for UP or DOWN, the error callback for ERR.
     * Returns the applied delta (0 when nothing was applied).
     */
    method Decode(phaseA: Phase, phaseB: Phase, now: int) returns (r: int)
      requires Valid() && IsClock(now)
      modifies this`curState, this`value, this`valChanged, this`lastUpdateTime, this`events
      ensures Valid()
      ensures old(InBounds()) ==> InBounds()
      ensures counterType.Holds(r)
      ensures curState == NextState(old(CellFor(phaseA, phaseB)))
      ensures Tag(old(CellFor(phaseA, phaseB))) == UP ==>
                && value == old(UpStep(now)).value && r == old(UpStep(now)).delta
                && valChanged == (old(valChanged) || old(UpStep(now)).accepted)
                && lastUpdateTime == LastUpdateAfter(accelMode, now, old(lastUpdateTime))
                && events == old(events) + ValueCalls(old(UpStep(now)))
      ensures Tag(old(CellFor(phaseA, phaseB))) == DOWN ==>
                && value == old(DownStep(now)).value && r == old(DownStep(now)).delta
                && valChanged == (old(valChanged) || old(DownStep(now)).accepted)
                && lastUpdateTime == LastUpdateAfter(accelMode, now, old(lastUpdateTime))
                && events == old(events) + ValueCalls(old(DownStep(now)))
      ensures Tag(old(CellFor(phaseA, phaseB))) != UP && Tag(old(CellFor(phaseA, phaseB))) != DOWN ==>
                && value == old(value) && r == 0 && valChanged == old(valChanged)
                && lastUpdateTime == old(lastUpdateTime)
                && events == old(events) + ErrorCalls(old(CellFor(phaseA, phaseB)))
    {
      var input := Input(phaseA, phaseB, invert);
      // On a constructed object the table reference starts at the full table and is only
      // ever set to one of the three tables, so the guard against a missing table, kept for
      // calls made before construction, cannot fire; the model has no unconstructed state.
      var cell := stateMachine[curState][input];
      var direction := Tag(cell);
      curState := NextState(cell);

      if direction == UP {
        r := CountUpStep(now);
      } else if direction == DOWN {
        r := CountDownStep(now);
      } else {
        if direction == ERR && hasErrorCallback {
          events := events + [ErrorEvent(value)];
        }
        r := 0;
      }
    }

    /**
     * One sample: the button first, then the phase decoder. Returns the applied delta
     * (0 when nothing was applied).
     */
    method Update(phaseA: Phase, phaseB: Phase, buttonEdge: bool, buttonState: int, now: int) returns (r: int)
      requires Valid() && IsClock(now)
      modifies this`curState, this`value, this`valChanged, this`btnChanged, this`lastUpdateTime, this`events
      ensures Valid()
      ensures old(InBounds()) ==> InBounds()
      ensures counterType.Holds(r)
      ensures btnChanged == (old(btnChanged) || buttonEdge)
      ensures curState == NextState(old(CellFor(phaseA, phaseB)))
      ensures Tag(old(CellFor(phaseA, phaseB))) == UP ==>
                && value == old(UpStep(now)).value && r == old(UpStep(now)).delta
                && valChanged == (old(valChanged) || old(UpStep(now)).accepted)
                && lastUpdateTime == LastUpdateAfter(accelMode, now, old(lastUpdateTime))
                && events == old(events) + ButtonCalls(buttonEdge, buttonState) + ValueCalls(old(UpStep(now)))
      ensures Tag(old(CellFor(phaseA, phaseB))) == DOWN ==>
                && value == old(DownStep(now)).value && r == old(DownStep(now)).delta
                && valChanged == (old(valChanged) || old(DownStep(now)).accepted)
                && lastUpdateTime == LastUpdateAfter(accelMode, now, old(lastUpdateTime))
                && events == old(events) + ButtonCalls(buttonEdge, buttonState) + ValueCalls(old(DownStep(now)))
      ensures Tag(old(CellFor(phaseA, phaseB))) != UP && Tag(old(CellFor(phaseA, phaseB))) != DOWN ==>
                && value == old(value) && r == 0 && valChanged == old(valChanged)
                && lastUpdateTime == old(lastUpdateTime)
                && events == old(events) + ButtonCalls(buttonEdge, buttonState) + ErrorCalls(old(CellFor(phaseA, phaseB)))
    {
      SampleButton(buttonEdge, buttonState);
      r := Decode(phaseA, phaseB, now);
    }
  }
}

=== FILE: scenarios.dfy ===
/**
 * Client-level runs of the engine: each builds a fresh EncoderBase, configures it the way
 * an application would, feeds it one phase sample, and states what it observes.
 */
module Scenarios {
  import opened StateMachine
  import opened Acceleration
  import opened Counter
  import opened Encoder

  /** A 32-bit engine over 0..10, periodic, at value 10, resting at A. */
  method WrappingEngine() returns (enc: EncoderBase)
    ensures fresh(enc) && enc.Valid()
    ensures enc.CellFor(0, 1) == B_cw + UP
    ensures enc.UpStep(0) == Step(0, 1, true)
  {
    enc := new EncoderBase(Int32);
    enc.SetLimits(0, 10, true);
    enc.SetValue(10);
    enc.Begin(0, 0);
  }

  /** A periodic counter at its upper bound wraps to the lower bound on one more UP. */
  method WrapAtMax() returns (v: int, r: int)
    ensures v == 0 && r == 1
  {
    var enc := WrappingEngine();
    assert Tag(B_cw + UP) == UP;
    r := enc.Update(0, 1, false, 0, 0);
    v := enc.GetValue();
  }

  /** A 16-bit engine over 0..10, not periodic, at value 8, with Slow acceleration, resting at A. */
  method SaturatingEngine() returns (enc: EncoderBase)
    ensures fresh(enc) && enc.Valid()
    ensures enc.CellFor(0, 1) == B_cw + UP
    ensures enc.UpStep(10) == Step(10, 2, true)
  {
    enc := new EncoderBase(Int16);
    enc.SetLimits(0, 10, false);
    enc.SetValue(8);
    enc.SetAcceleration(Slow);
    enc.Begin(0, 0);
    // 10 ms after the previous step: the Slow mode's top tier, 5.
    assert AcceleratedDelta(Slow, 1, 10, 0) == 5;
  }

  /**
   * A step that acceleration scales to 5 near a non-periodic upper bound moves the value
   * only up to the bound and reports the 2 counts actually applied.
   */
  method PartialDelta() returns (v: int, r: int)
    ensures v == 10 && r == 2
  {
    var enc := SaturatingEngine();
    assert Tag(B_cw + UP) == UP;
    r := enc.Update(0, 1, false, 0, 10);
    v := enc.GetValue();
  }

  /** An 8-bit engine at value 5, resting at A, with only the error callback attached. */
  method ErrorWatchingEngine() returns (enc: EncoderBase)
    ensures fresh(enc) && enc.Valid()
    ensures enc.value == 5 && !enc.valChanged && enc.events == []
    ensures enc.hasErrorCallback && !enc.hasButtonCallback
    ensures enc.CellFor(1, 1) == A + ERR
  {
    enc := new EncoderBase(Int8);
    enc.SetValue(5);
    enc.AttachErrorCallback(true);
    enc.Begin(0, 0);
  }

  /**
   * Both phases flipping at once (00 to 11) is malformed: the error callback is called once
   * with the current value, and neither the value nor its change flag moves.
   */
  method JumpIsError() returns (v: int, r: int, changed: bool, ghost calls: seq<Event>)
    ensures v == 5 && r == 0 && !changed
    ensures calls == [ErrorEvent(5)]
  {
    var enc := ErrorWatchingEngine();
    assert Tag(A + ERR) == ERR;
    assert enc.ErrorCalls(A + ERR) == [ErrorEvent(5)];
    assert enc.ButtonCalls(false, 0) == [];
    r := enc.Update(1, 1, false, 0, 0);
    calls := enc.events;
    v := enc.GetValue();
    changed := enc.ValueChanged();
  }

  /** The change flag reads true once after a counted step and false on the next read. */
  method ChangeFlagReadsOnce() returns (first: bool, second: bool)
    ensures first && !second
  {
    var enc := WrappingEngine();
    assert Tag(B_cw + UP) == UP;
    var r := enc.Update(0, 1, false, 0, 0);
    first := enc.ValueChanged();
    second := enc.ValueChanged();
  }

  /**
   * In every count mode, an update that samples the phases begin() was seeded with finds
   * no direction: the state stays, the value and its change flag are untouched and 0 is
   * returned.
   */
  method QuietAfterBegin(counterType: CounterType, mode: CountMode, phaseA: Phase, phaseB: Phase, start: int)
    returns (r: int, v: int, changed: bool, settled: bool)
    requires counterType.Holds(start)
    ensures r == 0 && v == start && !changed && settled
  {
    var enc := new EncoderBase(counterType);
    enc.SetValue(start);
    enc.SetCountMode(mode);
    enc.Begin(phaseA, phaseB);
    var s := enc.curState;
    assert enc.stateMachine == Rows(TableOf(mode));
    RestingIsQuiet(TableOf(mode), s);
    assert enc.CellFor(phaseA, phaseB) == s;
    r := enc.Update(phaseA, phaseB, false, 0, 0);
    settled := enc.curState == s;
    v := enc.GetValue();
    changed := enc.ValueChanged();
  }

  /** An engine at value start in the given mode, seeded from the given phases, with only the error callback attached. */
  method ErrorWatchingModeEngine(counterType: CounterType, mode: CountMode, phaseA: Phase, phaseB: Phase, start: int)
    returns (enc: EncoderBase)
    requires counterType.Holds(start)
    ensures fresh(enc) && enc.Valid()
    ensures enc.value == start && !enc.valChanged && enc.events == []
    ensures enc.hasErrorCallback && !enc.hasButtonCallback
    ensures enc.stateMachine == Rows(TableOf(mode))
    ensures enc.curState == Input(phaseA, phaseB, enc.invert) && enc.curState < 4
  {
    enc := new EncoderBase(counterType);
    enc.SetValue(start);
    enc.SetCountMode(mode);
    enc.AttachErrorCallback(true);
    enc.Begin(phaseA, phaseB);
  }

  /**
   * An engine at value start in the given mode, seeded from the given phases, with only the
   * error callback attached: the sample with both phases flipped selects an ERR cell.
   */
  method FlipWatchingEngine(counterType: CounterType, mode: CountMode, phaseA: Phase, phaseB: Phase, start: int)
    returns (enc: EncoderBase)
    requires counterType.Holds(start)
    ensures fresh(enc) && enc.Valid()
    ensures enc.value == start && !enc.valChanged && enc.events == []
    ensures enc.hasErrorCallback && !enc.hasButtonCallback
    ensures Tag(enc.CellFor(1 - phaseA, 1 - phaseB)) == ERR
  {
    enc := ErrorWatchingModeEngine(counterType, mode, phaseA, phaseB, start);
    var s := enc.curState;
    var t := TableOf(mode);
    assert enc.stateMachine == Rows(t);
    FlippedInput(phaseA, phaseB, enc.invert);
    if t == HalfTable {
      HalfDoubleFlipIsError(s);
    } else {
      DoubleFlipIsError(t, s);
    }
  }

  /**
   * In every count mode, an update whose sample flips both phases relative to the ones
   * begin() was seeded with is an error: the value and its change flag are untouched, 0 is
   * returned and the error callback is called once with the value.
   */
  method DoubleFlipAfterBegin(counterType: CounterType, mode: CountMode, phaseA: Phase, phaseB: Phase, start: int)
    returns (r: int, v: int, changed: bool, ghost calls: seq<Event>)
    requires counterType.Holds(start)
    ensures r == 0 && v == start && !changed
    ensures calls == [ErrorEvent(start)]
  {
    var enc := FlipWatchingEngine(counterType, mode, phaseA, phaseB, start);
    var flippedA: Phase, flippedB: Phase := 1 - phaseA, 1 - phaseB;
    ghost var cell := enc.CellFor(flippedA, flippedB);
    assert Tag(cell) != UP && Tag(cell) != DOWN;
    assert enc.ErrorCalls(cell) == [ErrorEvent(start)];
    assert enc.ButtonCalls(false, 0) == [];
    r := enc.Update(flippedA, flippedB, false, 0, 0);
    calls := enc.events;
    v := enc.GetValue();
    changed := enc.ValueChanged();
  }
}

=== FILE: state_machine.dfy ===
/**
 * The quadrature phase decoder: three constant 7x4 transition tables, indexed by the
 * current persistent state and the (possibly inverted) two-bit phase sample. Each cell
 * packs the next state in its low nibble and a direction tag in its high nibble.
 */
module StateMachine {

  /** The source's uint8_t, as a number. */
  type Byte = b: int | 0 <= b < 256

  /** One sampled phase line, as a pin read delivers it: 0 or 1. */
  type Phase = p: int | 0 <= p <= 1

  /** An inversion mask; only its two low bits are ever set. */
  type Mask = m: int | 0 <= m <= 3

  // Persistent states (low nibble of a cell).
  const A: Byte := 0x00
  const B_cw: Byte := 0x01
  const C_cw: Byte := 0x03
  const D_cw: Byte := 0x02
  const B_ccw: Byte := 0x04
  const C_ccw: Byte := 0x06
  const D_ccw: Byte := 0x05

  // Direction tags (high nibble of a cell).
  const UP: Byte := 0x10
  const DOWN: Byte := 0x20
  const ERR: Byte := 0x30

  /** The counting resolutions the encoder can be switched to. */
  datatype CountMode = Quarter | QuarterInv | Half | HalfAlt | Full

  /** Which of the three constant tables is installed. */
  datatype Table = QtrTable | HalfTable | FullTable

  /** The table a count mode installs. */
  function TableOf(mode: CountMode): Table
  {
    if mode == Quarter || mode == QuarterInv then QtrTable
    else if mode == Half || mode == HalfAlt then HalfTable
    else FullTable
  }

  /** One count per quadrature period; the standard table for detented encoders. */
  const QuarterRows: seq<seq<Byte>> := [
    // 00           01          10            11
    [A,           B_cw,       D_ccw,        A + ERR],      // A
    [A,           B_cw,       B_cw + ERR,   C_cw],         // B_cw
    [A + UP,      D_cw + ERR, D_cw,         C_cw],         // D_cw
    [C_cw + ERR,  B_cw,       D_cw,         C_cw],         // C_cw
    [A + DOWN,    B_ccw,      B_ccw + ERR,  C_ccw],        // B_ccw
    [A,           D_ccw + ERR, D_ccw,       C_ccw],        // D_ccw
    [C_ccw + ERR, B_ccw,      D_ccw,        C_ccw]         // C_ccw
  ]

  /** Two counts per quadrature period; C_ccw is folded into C_cw, and row C_ccw only reports errors. */
  const HalfRows: seq<seq<Byte>> := [
    // 00           01            10            11
    [A,           B_cw,         D_ccw,        A + ERR],      // A
    [A,           B_cw,         B_cw + ERR,   C_cw + UP],    // B_cw
    [A + UP,      D_cw + ERR,   D_cw,         C_cw],         // D_cw
    [C_cw + ERR,  B_ccw,        D_cw,         C_cw],         // C_cw
    [A + DOWN,    B_ccw,        B_ccw + ERR,  C_cw],         // B_ccw
    [A,           B_ccw + ERR,  D_ccw,        C_cw + DOWN],  // D_ccw
    [C_ccw + ERR, C_ccw + ERR,  C_ccw + ERR,  C_ccw + ERR]   // C_ccw
  ]

  /**
   * Four counts per quadrature period. The initialiser lists rows 0..3 only; the
   * remaining rows of the 7x4 array are zero, i.e. "go to A, no direction".
   */
  const FullRows: seq<seq<Byte>> := [
    // 00           01            10            11
    [A,           B_cw + UP,    D_cw + DOWN,  A + ERR],      // A
    [A + DOWN,    B_cw,         B_cw + ERR,   C_cw + UP],    // B_cw
    [A + UP,      D_cw + ERR,   D_cw,         C_cw + DOWN],  // D_cw
    [C_cw + ERR,  B_cw + DOWN,  D_cw + UP,    C_cw],         // C_cw
    [0, 0, 0, 0],
    [0, 0, 0, 0],
    [0, 0, 0, 0]
  ]

  function Rows(t: Table): seq<seq<Byte>>
  {
    match t
    case QtrTable => QuarterRows
    case HalfTable => HalfRows
    case FullTable => FullRows
  }

  /** The persistent part of a cell: its low nibble (the source masks with 0x0F). */
  function NextState(cell: Byte): Byte { cell % 16 }

  /** The transient direction part of a cell: its high nibble (the source masks with 0xF0). */
  function Tag(cell: Byte): Byte { cell - cell % 16 }

  /** A cell is well formed when its state is one of the seven and its tag one of the four. */
  predicate WellFormed(cell: Byte)
  {
    NextState(cell) < 7 && (Tag(cell) == 0 || Tag(cell) == UP || Tag(cell) == DOWN || Tag(cell) == ERR)
  }

  /** The raw two-bit sample: phase A in bit 1, phase B in bit 0. */
  function Sample(phaseA: Phase, phaseB: Phase): int
  {
    2 * phaseA + phaseB
  }

  /**
   * Bitwise exclusive or of a two-bit value with a mask: bit 0 of the mask flips phase B
   * (x and x + 1 swap for even x), bit 1 flips phase A (x and x + 2 swap).
   */
  function Xor2(x: int, m: Mask): (y: int)
    requires 0 <= x < 4
    ensures 0 <= y < 4
    ensures y == x <==> m == 0
  {
    if m == 0 then x
    else if m == 1 then (if x == 0 || x == 2 then x + 1 else x - 1)
    else if m == 2 then (if x < 2 then x + 2 else x - 2)
    else 3 - x
  }

  /** Applying a mask twice gives back the original value. */
  lemma Xor2Involution(x: int, m: Mask)
    requires 0 <= x < 4
    ensures Xor2(Xor2(x, m), m) == x
  {
    assert x == 0 || x == 1 || x == 2 || x == 3;
    assert m == 0 || m == 1 || m == 2 || m == 3;
  }

  /** Xor2 is the bitwise exclusive or of two two-bit values. */
  lemma Xor2IsXor(x: int, m: Mask)
    requires 0 <= x < 4
    ensures Xor2(x, m) == ((x as bv2) ^ (m as bv2)) as int
  {
    if m == 0 {
      assert x == 0 || x == 1 || x == 2 || x == 3;
    } else if m == 1 {
      assert x == 0 || x == 1 || x == 2 || x == 3;
    } else if m == 2 {
      assert x == 0 || x == 1 || x == 2 || x == 3;
    } else {
      assert x == 0 || x == 1 || x == 2 || x == 3;
    }
  }

  /** The full mask 0x3 flips both phases of an input. */
  lemma Xor2FullMask(x: int)
    requires 0 <= x < 4
    ensures Xor2(x, 3) == Flip(x)
  {
    assert x == 0 || x == 1 || x == 2 || x == 3;
  }

  /**
   * The table input for a phase sample: the raw sample XOR the mode's inversion mask.
   * XOR-ing the mask again gives back the raw sample.
   */
  function Input(phaseA: Phase, phaseB: Phase, invert: Mask): (input: Byte)
    ensures input < 4
    ensures Xor2(input, invert) == Sample(phaseA, phaseB)
  {
    Xor2Involution(Sample(phaseA, phaseB), invert);
    Xor2(Sample(phaseA, phaseB), invert)
  }

  /** Flipping both phase lines flips both bits of the table input, whatever the mask. */
  lemma FlippedInput(phaseA: Phase, phaseB: Phase, invert: Mask)
    ensures Input(1 - phaseA, 1 - phaseB, invert) == Flip(Input(phaseA, phaseB, invert))
  {
    assert phaseA == 0 || phaseA == 1;
    assert phaseB == 0 || phaseB == 1;
    assert invert == 0 || invert == 1 || invert == 2 || invert == 3;
  }

  /** Seven rows of four cells, each naming one of the seven states as the next one. */
  predicate IsTable(rows: seq<seq<Byte>>)
  {
    && |rows| == 7
    && (forall s :: 0 <= s < 7 ==> |rows[s]| == 4)
    && (forall s, i :: 0 <= s < 7 && 0 <= i < 4 ==> NextState(rows[s][i]) < 7)
  }

  /** Every cell of the three tables, including the zero-filled full-table rows, is well formed. */
  lemma TablesWellFormed(t: Table)
    ensures IsTable(Rows(t))
    ensures forall s, i :: 0 <= s < 7 && 0 <= i < 4 ==> WellFormed(Rows(t)[s][i])
  {
    var rows := Rows(t);
    forall s, i | 0 <= s < 7 && 0 <= i < 4 ensures |rows[s]| == 4 && WellFormed(rows[s][i]) {
      assert s == 0 || s == 1 || s == 2 || s == 3 || s == 4 || s == 5 || s == 6;
    }
  }

  /** The cell of table t at (state, input); it is well formed, so a stored state stays in 0..6. */
  function Lookup(t: Table, state: Byte, input: Byte): (cell: Byte)
    requires state < 7 && input < 4
    ensures WellFormed(cell)
  {
    TablesWellFormed(t);
    Rows(t)[state][input]
  }

  /** Every element is a two-bit table input. */
  predicate ValidInputs(inputs: seq<Byte>)
  {
    forall k :: 0 <= k < |inputs| ==> inputs[k] < 4
  }

  lemma ConcatValid(xs: seq<Byte>, ys: seq<Byte>)
    requires ValidInputs(xs) && ValidInputs(ys)
    ensures ValidInputs(xs + ys)
  {
    forall k | 0 <= k < |xs + ys| ensures (xs + ys)[k] < 4 {
      if k < |xs| { assert (xs + ys)[k] == xs[k]; } else { assert (xs + ys)[k] == ys[k - |xs|]; }
    }
  }

  /**
   * Runs table t from state s over a sequence of inputs, giving the final persistent
   * state and the direction tag each step produced.
   */
  function Run(rows: seq<seq<Byte>>, s: Byte, inputs: seq<Byte>): (r: (Byte, seq<Byte>))
    requires IsTable(rows) && s < 7
    requires ValidInputs(inputs)
    ensures r.0 < 7 && |r.1| == |inputs|
    decreases |inputs|
  {
    if inputs == [] then (s, [])
    else
      var cell := rows[s][inputs[0]];
      var rest := Run(rows, NextState(cell), inputs[1..]);
      (rest.0, [Tag(cell)] + rest.1)
  }

  /** How many steps of a trace carry the given tag. */
  function Count(tags: seq<Byte>, tag: Byte): (n: nat)
    ensures n <= |tags|
  {
    if tags == [] then 0 else (if tags[0] == tag then 1 else 0) + Count(tags[1..], tag)
  }

  /** One clockwise quadrature period of table inputs: 00 -> 01 -> 11 -> 10 -> 00. */
  const Clockwise: seq<Byte> := [0x1, 0x3, 0x2, 0x0]

  /** One counter-clockwise quadrature period of table inputs: 00 -> 10 -> 11 -> 01 -> 00. */
  const CounterClockwise: seq<Byte> := [0x2, 0x3, 0x1, 0x0]

  /** k repetitions of a cycle. */
  function Repeat(cycle: seq<Byte>, k: nat): (r: seq<Byte>)
    ensures |r| == k * |cycle|
    ensures forall j :: 0 <= j < |r| ==> r[j] in cycle
  {
    if k == 0 then [] else cycle + Repeat(cycle, k - 1)
  }

  /** The counts per quadrature period each table is designed for. */
  function CountsPerPeriod(t: Table): nat
  {
    match t
    case QtrTable => 1
    case HalfTable => 2
    case FullTable => 4
  }

  /** The phase pair (as a table input) at which a persistent state rests. */
  function RestingInput(s: Byte): (input: Byte)
    requires s < 7
    ensures input < 4
  {
    if s < 4 then s else s - 3
  }

  /** The input with both phases changed. */
  function Flip(input: Byte): (flipped: Byte)
    requires input < 4
    ensures flipped < 4 && flipped != input
  {
    3 - input
  }

  lemma {:induction false} CountAppend(a: seq<Byte>, b: seq<Byte>, tag: Byte)
    ensures Count(a + b, tag) == Count(a, tag) + Count(b, tag)
    decreases |a|
  {
    if a == [] {
      assert a + b == b;
    } else {
      assert (a + b)[0] == a[0];
      assert (a + b)[1..] == a[1..] + b;
      CountAppend(a[1..], b, tag);
    }
  }

  /** Runs installed table t; the cells it reads are the ones Lookup gives. */
  function Trace(t: Table, s: Byte, inputs: seq<Byte>): (r: (Byte, seq<Byte>))
    requires s < 7 && ValidInputs(inputs)
    ensures r.0 < 7 && |r.1| == |inputs|
  {
    TablesWellFormed(t);
    Run(Rows(t), s, inputs)
  }

  /** Running over xs + ys is running over xs and then over ys from where xs left off. */
  lemma {:induction false} RunAppend(rows: seq<seq<Byte>>, s: Byte, xs: seq<Byte>, ys: seq<Byte>)
    requires IsTable(rows) && s < 7
    requires ValidInputs(xs) && ValidInputs(ys)
    ensures ValidInputs(xs + ys)
    ensures Run(rows, s, xs + ys).0 == Run(rows, Run(rows, s, xs).0, ys).0
    ensures Run(rows, s, xs + ys).1 == Run(rows, s, xs).1 + Run(rows, Run(rows, s, xs).0, ys).1
    decreases |xs|
  {
    ConcatValid(xs, ys);
    if xs == [] {
      assert xs + ys == ys;
      assert Run(rows, s, xs) == (s, []);
      assert [] + Run(rows, s, ys).1 == Run(rows, s, ys).1;
    } else {
      assert (xs + ys)[0] == xs[0];
      assert (xs + ys)[1..] == xs[1..] + ys;
      var cell := rows[s][xs[0]];
      RunAppend(rows, NextState(cell), xs[1..], ys);
      var mid := Run(rows, NextState(cell), xs[1..]);
      var tail := Run(rows, mid.0, ys);
      assert Run(rows, s, xs) == (mid.0, [Tag(cell)] + mid.1);
      assert Run(rows, s, xs + ys) == (tail.0, [Tag(cell)] + (mid.1 + tail.1));
      assert [Tag(cell)] + (mid.1 + tail.1) == ([Tag(cell)] + mid.1) + tail.1;
    }
  }

  /** Four consecutive steps of a table meeting cells c0..c3. */
  lemma RunFour(rows: seq<seq<Byte>>, s: Byte, w: Byte, x: Byte, y: Byte, z: Byte,
                c0: Byte, c1: Byte, c2: Byte, c3: Byte)
    requires IsTable(rows) && s < 7 && w < 4 && x < 4 && y < 4 && z < 4
    requires rows[s][w] == c0 && rows[NextState(c0)][x] == c1
    requires rows[NextState(c1)][y] == c2 && rows[NextState(c2)][z] == c3
    ensures ValidInputs([w, x, y, z])
    ensures Run(rows, s, [w, x, y, z]) == (NextState(c3), [Tag(c0), Tag(c1), Tag(c2), Tag(c3)])
  {
    assert [w, x, y, z][1..] == [x, y, z] && [x, y, z][1..] == [y, z] && [y, z][1..] == [z] && [z][1..] == [];
    var r4 := Run(rows, NextState(c3), []);
    assert r4 == (NextState(c3), []);
    var r3 := Run(rows, NextState(c2), [z]);
    assert r3 == (r4.0, [Tag(c3)] + r4.1);
    var r2 := Run(rows, NextState(c1), [y, z]);
    assert r2 == (r3.0, [Tag(c2)] + r3.1);
    var r1 := Run(rows, NextState(c0), [x, y, z]);
    assert r1 == (r2.0, [Tag(c1)] + r2.1);
    assert Run(rows, s, [w, x, y, z]) == (r1.0, [Tag(c0)] + r1.1);
    assert r3.1 == [Tag(c3)] && r2.1 == [Tag(c2), Tag(c3)] && r1.1 == [Tag(c1), Tag(c2), Tag(c3)];
    assert [Tag(c0)] + r1.1 == [Tag(c0), Tag(c1), Tag(c2), Tag(c3)];
    assert r1.0 == NextState(c3);
  }

  lemma CountFour(w: Byte, x: Byte, y: Byte, z: Byte, tag: Byte)
    ensures Count([w, x, y, z], tag)
         == (if w == tag then 1 else 0) + (if x == tag then 1 else 0)
          + (if y == tag then 1 else 0) + (if z == tag then 1 else 0)
  {
    assert [z][1..] == [];
    assert Count([z], tag) == (if z == tag then 1 else 0);
    assert [y, z][1..] == [z];
    assert Count([y, z], tag) == (if y == tag then 1 else 0) + Count([z], tag);
    assert [x, y, z][1..] == [y, z];
    assert Count([x, y, z], tag) == (if x == tag then 1 else 0) + Count([y, z], tag);
    assert [w, x, y, z][1..] == [x, y, z];
  }

  /** The quarter table over one period each way: a single UP (DOWN) as it re-enters A. */
  lemma QuarterPeriods()
    ensures ValidInputs(Clockwise) && ValidInputs(CounterClockwise)
    ensures Run(QuarterRows, A, Clockwise) == (A, [0, 0, 0, UP])
    ensures Run(QuarterRows, A, CounterClockwise) == (A, [0, 0, 0, DOWN])
  {
    TablesWellFormed(QtrTable);
    RunFour(QuarterRows, A, 0x1, 0x3, 0x2, 0x0, B_cw, C_cw, D_cw, A + UP);
    RunFour(QuarterRows, A, 0x2, 0x3, 0x1, 0x0, D_ccw, C_ccw, B_ccw, A + DOWN);
  }

  /** The half table over one period each way: a count at the 11 and at the 00 phase pair. */
  lemma HalfPeriods()
    ensures ValidInputs(Clockwise) && ValidInputs(CounterClockwise)
    ensures Run(HalfRows, A, Clockwise) == (A, [0, UP, 0, UP])
    ensures Run(HalfRows, A, CounterClockwise) == (A, [0, DOWN, 0, DOWN])
  {
    TablesWellFormed(HalfTable);
    RunFour(HalfRows, A, 0x1, 0x3, 0x2, 0x0, B_cw, C_cw + UP, D_cw, A + UP);
    RunFour(HalfRows, A, 0x2, 0x3, 0x1, 0x0, D_ccw, C_cw + DOWN, B_ccw, A + DOWN);
  }

  /** The full table over one period each way: a count at every edge. */
  lemma FullPeriods()
    ensures ValidInputs(Clockwise) && ValidInputs(CounterClockwise)
    ensures Run(FullRows, A, Clockwise) == (A, [UP, UP, UP, UP])
    ensures Run(FullRows, A, CounterClockwise) == (A, [DOWN, DOWN, DOWN, DOWN])
  {
    TablesWellFormed(FullTable);
    RunFour(FullRows, A, 0x1, 0x3, 0x2, 0x0, B_cw + UP, C_cw + UP, D_cw + UP, A + UP);
    RunFour(FullRows, A, 0x2, 0x3, 0x1, 0x0, D_cw + DOWN, C_cw + DOWN, B_cw + DOWN, A + DOWN);
  }

  /** The tags of one period, per table and direction, as the three lemmas above give them. */
  function PeriodTags(t: Table, tag: Byte): seq<Byte>
  {
    match t
    case QtrTable => [0, 0, 0, tag]
    case HalfTable => [0, tag, 0, tag]
    case FullTable => [tag, tag, tag, tag]
  }

  lemma PeriodTagCounts(t: Table, tag: Byte, other: Byte)
    requires tag != 0 && other != 0 && other != tag
    ensures Count(PeriodTags(t, tag), tag) == CountsPerPeriod(t)
    ensures Count(PeriodTags(t, tag), other) == 0
  {
    var p := PeriodTags(t, tag);
    CountFour(p[0], p[1], p[2], p[3], tag);
    CountFour(p[0], p[1], p[2], p[3], other);
    assert p == [p[0], p[1], p[2], p[3]];
  }

  /**
   * From A, one clockwise period gives exactly CountsPerPeriod(t) UP tags, no DOWN and
   * no ERR tags, and returns to A.
   */
  lemma ClockwisePeriod(t: Table)
    ensures ValidInputs(Clockwise)
    ensures Trace(t, A, Clockwise).0 == A
    ensures Count(Trace(t, A, Clockwise).1, UP) == CountsPerPeriod(t)
    ensures Count(Trace(t, A, Clockwise).1, DOWN) == 0
    ensures Count(Trace(t, A, Clockwise).1, ERR) == 0
  {
    match t {
      case QtrTable => QuarterPeriods();
      case HalfTable => HalfPeriods();
      case FullTable => FullPeriods();
    }
    assert Trace(t, A, Clockwise) == (A, PeriodTags(t, UP));
    PeriodTagCounts(t, UP, DOWN);
    PeriodTagCounts(t, UP, ERR);
  }

  /** The mirror of ClockwisePeriod: CountsPerPeriod(t) DOWN tags per counter-clockwise period. */
  lemma CounterClockwisePeriod(t: Table)
    ensures ValidInputs(CounterClockwise)
    ensures Trace(t, A, CounterClockwise).0 == A
    ensures Count(Trace(t, A, CounterClockwise).1, DOWN) == CountsPerPeriod(t)
    ensures Count(Trace(t, A, CounterClockwise).1, UP) == 0
    ensures Count(Trace(t, A, CounterClockwise).1, ERR) == 0
  {
    match t {
      case QtrTable => QuarterPeriods();
      case HalfTable => HalfPeriods();
      case FullTable => FullPeriods();
    }
    assert Trace(t, A, CounterClockwise) == (A, PeriodTags(t, DOWN));
    PeriodTagCounts(t, DOWN, UP);
    PeriodTagCounts(t, DOWN, ERR);
  }

  /**
   * A cycle of inputs that brings state s back to s, repeated k times, brings s back to s
   * again and produces k times as many of each tag as one pass.
   */
  lemma {:induction false} RepeatedCycle(rows: seq<seq<Byte>>, s: Byte, cycle: seq<Byte>, k: nat, tag: Byte)
    requires IsTable(rows) && s < 7 && ValidInputs(cycle)
    requires Run(rows, s, cycle).0 == s
    ensures ValidInputs(Repeat(cycle, k))
    ensures Run(rows, s, Repeat(cycle, k)).0 == s
    ensures Count(Run(rows, s, Repeat(cycle, k)).1, tag) == k * Count(Run(rows, s, cycle).1, tag)
  {
    if k == 0 {
      assert Repeat(cycle, k) == [];
    } else {
      var rest := Repeat(cycle, k - 1);
      assert Repeat(cycle, k) == cycle + rest;
      RepeatedCycle(rows, s, cycle, k - 1, tag);
      RunAppend(rows, s, cycle, rest);
      var once := Run(rows, s, cycle).1;
      var more := Run(rows, s, rest).1;
      CountAppend(once, more, tag);
      var c := Count(once, tag);
      assert Count(more, tag) == (k - 1) * c;
      assert c + (k - 1) * c == k * c;
    }
  }

  /** k clockwise periods from A give k * CountsPerPeriod(t) UPs and nothing else, ending at A. */
  lemma ClockwiseTurns(t: Table, k: nat)
    ensures ValidInputs(Repeat(Clockwise, k))
    ensures Trace(t, A, Repeat(Clockwise, k)).0 == A
    ensures Count(Trace(t, A, Repeat(Clockwise, k)).1, UP) == k * CountsPerPeriod(t)
    ensures Count(Trace(t, A, Repeat(Clockwise, k)).1, DOWN) == 0
    ensures Count(Trace(t, A, Repeat(Clockwise, k)).1, ERR) == 0
  {
    TablesWellFormed(t);
    ClockwisePeriod(t);
    var rows := Rows(t);
    assert Trace(t, A, Clockwise) == Run(rows, A, Clockwise);
    RepeatedCycle(rows, A, Clockwise, k, UP);
    RepeatedCycle(rows, A, Clockwise, k, DOWN);
    RepeatedCycle(rows, A, Clockwise, k, ERR);
    assert Trace(t, A, Repeat(Clockwise, k)) == Run(rows, A, Repeat(Clockwise, k));
  }

  /** k counter-clockwise periods from A give k * CountsPerPeriod(t) DOWNs and nothing else. */
  lemma CounterClockwiseTurns(t: Table, k: nat)
    ensures ValidInputs(Repeat(CounterClockwise, k))
    ensures Trace(t, A, Repeat(CounterClockwise, k)).0 == A
    ensures Count(Trace(t, A, Repeat(CounterClockwise, k)).1, DOWN) == k * CountsPerPeriod(t)
    ensures Count(Trace(t, A, Repeat(CounterClockwise, k)).1, UP) == 0
    ensures Count(Trace(t, A, Repeat(CounterClockwise, k)).1, ERR) == 0
  {
    TablesWellFormed(t);
    CounterClockwisePeriod(t);
    var rows := Rows(t);
    assert Trace(t, A, CounterClockwise) == Run(rows, A, CounterClockwise);
    RepeatedCycle(rows, A, CounterClockwise, k, UP);
    RepeatedCycle(rows, A, CounterClockwise, k, DOWN);
    RepeatedCycle(rows, A, CounterClockwise, k, ERR);
    assert Trace(t, A, Repeat(CounterClockwise, k)) == Run(rows, A, Repeat(CounterClockwise, k));
  }
  /** The clockwise period as seen from input 3, where both quarter modes rest at a detent: 11, 10, 00, 01, 11. */
  const DetentClockwise: seq<Byte> := [2, 0, 1, 3]

  /** The counter-clockwise period as seen from input 3: 11, 01, 00, 10, 11. */
  const DetentCounterClockwise: seq<Byte> := [1, 0, 2, 3]

  /**
   * In both quarter modes a detent samples as input 3, so begin() seeds C_cw there. One
   * clockwise period from C_cw counts its UP half way, on entering A, and comes back to
   * C_cw; one counter-clockwise period from C_ccw counts its DOWN and comes back to C_ccw.
   */
  lemma QuarterDetentPeriods()
    ensures ValidInputs(DetentClockwise) && ValidInputs(DetentCounterClockwise)
    ensures Run(QuarterRows, C_cw, DetentClockwise) == (C_cw, [0, UP, 0, 0])
    ensures Run(QuarterRows, C_ccw, DetentCounterClockwise) == (C_ccw, [0, DOWN, 0, 0])
  {
    assert IsTable(QuarterRows) by { TablesWellFormed(QtrTable); }
    assert DetentClockwise == [2, 0, 1, 3] && DetentCounterClockwise == [1, 0, 2, 3];
    RunFour(QuarterRows, C_cw, 2, 0, 1, 3, D_cw, A + UP, B_cw, C_cw);
    RunFour(QuarterRows, C_ccw, 1, 0, 2, 3, B_ccw, A + DOWN, D_ccw, C_ccw);
  }

  /**
   * Reversing at a quarter-mode detent: from C_cw a counter-clockwise period first undoes
   * the half period C_cw stands for, so it reports nothing and ends in C_ccw; the mirror
   * holds from C_ccw. Since begin() at a detent seeds C_cw, the first counter-clockwise
   * detent after it is not counted.
   */
  lemma QuarterDetentReversal()
    ensures ValidInputs(DetentClockwise) && ValidInputs(DetentCounterClockwise)
    ensures Run(QuarterRows, C_cw, DetentCounterClockwise) == (C_ccw, [0, 0, 0, 0])
    ensures Run(QuarterRows, C_ccw, DetentClockwise) == (C_cw, [0, 0, 0, 0])
  {
    assert IsTable(QuarterRows) by { TablesWellFormed(QtrTable); }
    assert DetentClockwise == [2, 0, 1, 3] && DetentCounterClockwise == [1, 0, 2, 3];
    RunFour(QuarterRows, C_cw, 1, 0, 2, 3, B_cw, A, D_ccw, C_ccw);
    RunFour(QuarterRows, C_ccw, 2, 0, 1, 3, D_ccw, A, B_cw, C_cw);
  }

  /** k detent-to-detent clockwise periods from C_cw count k UPs and no DOWN, and end in C_cw. */
  lemma QuarterDetentClockwiseTurns(k: nat)
    ensures ValidInputs(Repeat(DetentClockwise, k))
    ensures Run(QuarterRows, C_cw, Repeat(DetentClockwise, k)).0 == C_cw
    ensures Count(Run(QuarterRows, C_cw, Repeat(DetentClockwise, k)).1, UP) == k
    ensures Count(Run(QuarterRows, C_cw, Repeat(DetentClockwise, k)).1, DOWN) == 0
  {
    assert IsTable(QuarterRows) by { TablesWellFormed(QtrTable); }
    QuarterDetentPeriods();
    var once := Run(QuarterRows, C_cw, DetentClockwise);
    assert once.1 == [0, UP, 0, 0];
    CountFour(0, UP, 0, 0, UP);
    CountFour(0, UP, 0, 0, DOWN);
    assert Count(once.1, UP) == 1 && Count(once.1, DOWN) == 0;
    RepeatedCycle(QuarterRows, C_cw, DetentClockwise, k, UP);
    RepeatedCycle(QuarterRows, C_cw, DetentClockwise, k, DOWN);
  }

  /** k detent-to-detent counter-clockwise periods from C_ccw count k DOWNs and no UP, and end in C_ccw. */
  lemma QuarterDetentCounterClockwiseTurns(k: nat)
    ensures ValidInputs(Repeat(DetentCounterClockwise, k))
    ensures Run(QuarterRows, C_ccw, Repeat(DetentCounterClockwise, k)).0 == C_ccw
    ensures Count(Run(QuarterRows, C_ccw, Repeat(DetentCounterClockwise, k)).1, DOWN) == k
    ensures Count(Run(QuarterRows, C_ccw, Repeat(DetentCounterClockwise, k)).1, UP) == 0
  {
    assert IsTable(QuarterRows) by { TablesWellFormed(QtrTable); }
    QuarterDetentPeriods();
    var once := Run(QuarterRows, C_ccw, DetentCounterClockwise);
    assert once.1 == [0, DOWN, 0, 0];
    CountFour(0, DOWN, 0, 0, DOWN);
    CountFour(0, DOWN, 0, 0, UP);
    assert Count(once.1, DOWN) == 1 && Count(once.1, UP) == 0;
    RepeatedCycle(QuarterRows, C_ccw, DetentCounterClockwise, k, DOWN);
    RepeatedCycle(QuarterRows, C_ccw, DetentCounterClockwise, k, UP);
  }


  /**
   * A state fed the phase pair it rests at stays put with no direction. This covers the
   * states begin() can seed (0..3) in every table, and all states of the quarter table
   * and all but the absorbing C_ccw row of the half table.
   */
  lemma RestingIsQuiet(t: Table, s: Byte)
    requires s < 4 || (t == QtrTable && s < 7) || (t == HalfTable && s < 6)
    ensures Lookup(t, s, RestingInput(s)) == s
  {
    assert s == 0 || s == 1 || s == 2 || s == 3 || s == 4 || s == 5 || s == 6;
  }

  /**
   * In the quarter and full tables, an input with both phases flipped relative to the
   * state's resting pair is an error and keeps the state.
   */
  lemma DoubleFlipIsError(t: Table, s: Byte)
    requires (t == QtrTable && s < 7) || (t == FullTable && s < 4)
    ensures Lookup(t, s, Flip(RestingInput(s))) == s + ERR
  {
    assert s == 0 || s == 1 || s == 2 || s == 3 || s == 4 || s == 5 || s == 6;
  }

  /** In the half table a double flip is an error too, but from D_ccw it moves to B_ccw. */
  lemma HalfDoubleFlipIsError(s: Byte)
    requires s < 7
    ensures Tag(Lookup(HalfTable, s, Flip(RestingInput(s)))) == ERR
    ensures s != D_ccw ==> NextState(Lookup(HalfTable, s, Flip(RestingInput(s)))) == s
    ensures NextState(Lookup(HalfTable, D_ccw, Flip(RestingInput(D_ccw)))) == B_ccw
  {
    assert s == 0 || s == 1 || s == 2 || s == 3 || s == 4 || s == 5 || s == 6;
  }

  /** Half-table row C_ccw is absorbing: every input reports an error and stays in C_ccw. */
  lemma {:induction false} HalfRowSixAbsorbs(inputs: seq<Byte>)
    requires ValidInputs(inputs)
    ensures Trace(HalfTable, C_ccw, inputs).0 == C_ccw
    ensures Count(Trace(HalfTable, C_ccw, inputs).1, ERR) == |inputs|
    decreases |inputs|
  {
    if inputs != [] {
      var i := inputs[0];
      assert i == 0 || i == 1 || i == 2 || i == 3;
      assert Lookup(HalfTable, C_ccw, i) == C_ccw + ERR;
      HalfRowSixAbsorbs(inputs[1..]);
    }
  }

  /** The zero-filled full-table rows send every input to A with no direction. */
  lemma FullUnlistedRows(s: Byte, input: Byte)
    requires 4 <= s < 7 && input < 4
    ensures Lookup(FullTable, s, input) == A
  {
    assert s == 4 || s == 5 || s == 6;
  }

  /** The full table never leaves states 0..3. */
  lemma FullStaysInListedRows(s: Byte, input: Byte)
    requires s < 7 && input < 4
    ensures NextState(Lookup(FullTable, s, input)) < 4
  {
    assert s == 0 || s == 1 || s == 2 || s == 3 || s == 4 || s == 5 || s == 6;
    assert input == 0 || input == 1 || input == 2 || input == 3;
  }

  /** The half table never enters its absorbing C_ccw row from any other state. */
  lemma HalfNeverEntersRowSix(s: Byte, input: Byte)
    requires s < 6 && input < 4
    ensures NextState(Lookup(HalfTable, s, input)) != C_ccw
  {
    assert s == 0 || s == 1 || s == 2 || s == 3 || s == 4 || s == 5;
    assert input == 0 || input == 1 || input == 2 || input == 3;
  }
}

=== FILE: turning.dfy ===
/**
 * The decoder and the counter together, without acceleration: the tags a table emits
 * while the shaft turns become unit steps of the counter.
 */
module Turning {
  import opened StateMachine
  import opened Counter

  /** The step each tag asks for with acceleration off: +1 for UP, -1 for DOWN, none otherwise. */
  function UnitDeltas(tags: seq<Byte>): (ds: seq<int>)
    ensures |ds| == |tags|
    ensures forall j :: 0 <= j < |tags| ==> (ds[j] == 1 <==> tags[j] == UP)
    ensures forall j :: 0 <= j < |tags| ==> (ds[j] == -1 <==> tags[j] == DOWN)
    ensures forall j :: 0 <= j < |tags| ==> (ds[j] == 0 <==> tags[j] != UP && tags[j] != DOWN)
  {
    if tags == [] then []
    else [if tags[0] == UP then 1 else if tags[0] == DOWN then -1 else 0] + UnitDeltas(tags[1..])
  }

  lemma {:induction false} SumOfUnits(k: nat, d: int)
    ensures Sum(Units(k, d)) == k * d
    decreases k
  {
    if k > 0 {
      assert Units(k, d)[1..] == Units(k - 1, d);
      SumOfUnits(k - 1, d);
    }
  }

  /**
   * Tags with no DOWN among them move the counter exactly as many unit UP steps as there
   * are UP tags: the other tags leave the value alone.
   */
  lemma {:induction false} UpTagsDrive(value: int, lim: Limits, tags: seq<Byte>)
    requires Count(tags, DOWN) == 0
    ensures Drive(value, lim, UnitDeltas(tags)) == Drive(value, lim, Units(Count(tags, UP), 1))
    decreases |tags|
  {
    if tags != [] {
      var ds := UnitDeltas(tags);
      assert ds[1..] == UnitDeltas(tags[1..]);
      var c := Count(tags[1..], UP);
      if tags[0] == UP {
        assert Units(c + 1, 1)[1..] == Units(c, 1);
        UpTagsDrive(Apply(value, lim, 1), lim, tags[1..]);
      } else {
        UpTagsDrive(value, lim, tags[1..]);
      }
    }
  }

  /** The mirror of UpTagsDrive for tags with no UP among them. */
  lemma {:induction false} DownTagsDrive(value: int, lim: Limits, tags: seq<Byte>)
    requires Count(tags, UP) == 0
    ensures Drive(value, lim, UnitDeltas(tags)) == Drive(value, lim, Units(Count(tags, DOWN), -1))
    decreases |tags|
  {
    if tags != [] {
      var ds := UnitDeltas(tags);
      assert ds[1..] == UnitDeltas(tags[1..]);
      var c := Count(tags[1..], DOWN);
      if tags[0] == DOWN {
        assert Units(c + 1, -1)[1..] == Units(c, -1);
        DownTagsDrive(Apply(value, lim, -1), lim, tags[1..]);
      } else {
        DownTagsDrive(value, lim, tags[1..]);
      }
    }
  }

  /**
   * k clockwise periods from A advance a periodic counter by k * CountsPerPeriod(t) modulo
   * the size of its range. In full-step mode over 0..3, one period from 0 visits every
   * value and comes back to 0.
   */
  lemma ClockwiseTurningWraps(t: Table, value: int, lim: Limits, k: nat)
    requires lim.periodic && lim.minVal < lim.maxVal && lim.Contains(value)
    ensures ValidInputs(Repeat(Clockwise, k))
    ensures Drive(value, lim, UnitDeltas(Trace(t, A, Repeat(Clockwise, k)).1))
         == lim.minVal + (value - lim.minVal + k * CountsPerPeriod(t)) % (lim.maxVal - lim.minVal + 1)
  {
    ClockwiseTurns(t, k);
    UpTagsDrive(value, lim, Trace(t, A, Repeat(Clockwise, k)).1);
    PeriodicUnitClimb(value, lim, k * CountsPerPeriod(t));
  }

  /** k counter-clockwise periods from A move a periodic counter back by k * CountsPerPeriod(t), modulo the range. */
  lemma CounterClockwiseTurningWraps(t: Table, value: int, lim: Limits, k: nat)
    requires lim.periodic && lim.minVal < lim.maxVal && lim.Contains(value)
    ensures ValidInputs(Repeat(CounterClockwise, k))
    ensures Drive(value, lim, UnitDeltas(Trace(t, A, Repeat(CounterClockwise, k)).1))
         == lim.minVal + (value - lim.minVal - k * CountsPerPeriod(t)) % (lim.maxVal - lim.minVal + 1)
  {
    CounterClockwiseTurns(t, k);
    DownTagsDrive(value, lim, Trace(t, A, Repeat(CounterClockwise, k)).1);
    PeriodicUnitDescent(value, lim, k * CountsPerPeriod(t));
  }

  /** k clockwise periods from A raise a non-periodic counter by k * CountsPerPeriod(t), stopping at maxVal. */
  lemma ClockwiseTurningSaturates(t: Table, value: int, lim: Limits, k: nat)
    requires !lim.periodic && value <= lim.maxVal
    ensures ValidInputs(Repeat(Clockwise, k))
    ensures Drive(value, lim, UnitDeltas(Trace(t, A, Repeat(Clockwise, k)).1))
         == Least(value + k * CountsPerPeriod(t), lim.maxVal)
  {
    ClockwiseTurns(t, k);
    var c := k * CountsPerPeriod(t);
    UpTagsDrive(value, lim, Trace(t, A, Repeat(Clockwise, k)).1);
    SaturatingClimb(value, lim, Units(c, 1));
    SumOfUnits(c, 1);
  }
}
